=== FILE: README.md ===
# viewport-truth, modelled in Dafny

viewport-truth reports the viewport as it really is on mobile browsers. It measures the following and publishes them as an immutable snapshot to subscribers:

- the layout viewport and the visual viewport;
- the zoom scale;
- whether the on-screen keyboard is open;
- whether the geometry has been stable for a quiet period.

This project models the two parts that hold the logic:

- **The snapshot engine** (`src/core/engine.ts`).
  - `Geometry.Measure` and `Geometry.ComputeSnapshot` are a pure function from the host's raw readings to a snapshot. Each reading is either a JavaScript number (finite, NaN or ±Infinity) or not a number at all.
    - Sizes are clamped to a floor.
    - Safe-area compensation applies when the layout/visual delta is between 0.8 and 2.5 times the inset.
    - The effective size is the visual or the layout size, depending on zoom and trust.
    - The keyboard heuristic has two conditions.
    - Values are rounded to hundredths.
  - `Config` resolves options against the documented defaults. `SameSnapshot` is the change test.
  - `ViewportStore` is the store as a state machine over its closure variables:
    - the debounced stable/unstable flag;
    - the listener set;
    - attach/detach of the platform listeners;
    - `destroy`;
    - the degraded mode off-host.

    Each call into the store and each host callback is an `Event`. `Step` returns the new state and the listeners it called, in order. The clock and the host readings arrive with each callback.
- **The coalescing scheduler** (`src/core/scheduler.ts`). It is a state machine with an explicit host:
  - the microtask queue;
  - pending animation-frame requests;
  - pending idle requests.

  The first request wins, and the flag is cleared before the callback runs. With the corrected microtask of "## Findings", each queue keeps at most one pending callback along every trace (`Scheduler.AtMostOneOutstandingAlways`). The code as written can hold two frames after `cancelAll` (`Scheduler.CancelThenRescheduleLeaksFrame`). It keeps the bound on every state the store reaches, because there the two microtasks agree (`StoreProperties.StoreMicrotaskAgreesAsWritten`).

Modules: `Wrappers` (Option/Result), `JsNumber` (numbers, `clampMin`, `round2`), `Config`, `Geometry`, `Scheduler`, `ViewportStore` and `StoreProperties`. `StoreProperties` holds the lemmas over event sequences.

Five behaviours of the code that a reader might not expect:

- **Keyboard at 650 px.** With a visual height of 650 in an 800 px window (ratio 0.75, minimum delta 120), the keyboard is closed. src/core/engine.ts:61 tests `650 < 800 * 0.75 = 600`, which fails. A height of 599 opens it. See `Geometry.KeyboardBoundaryExamples`.
- **Recompute with unchanged geometry.** An unchanged recompute unsettles a stable snapshot. src/core/engine.ts:94 compares `isStable`, and src/core/engine.ts:197 marks the candidate unstable. So a stable snapshot flips to unstable and every listener is called (`StoreProperties.UnchangedGeometryUnsettlesStable`).
- **Subscribers in the same tick.** Each `subscribe` asks for a frame that calls the new listener once, but the scheduler drops a request while a frame is pending (src/core/scheduler.ts:17). So when two listeners subscribe in one tick on an attached store, only the first gets that call; the second hears from the store only at the next change (`StoreProperties.SameTickSecondSubscriberQueuesNothing`, `StoreProperties.SubscribeWhileFramePendingQueuesNothing`).
- **Subscribing to an unsettled store.** The first subscriber's own call is always coalesced away behind the attach recompute. On a new store, whose snapshot is stable, that recompute changes the snapshot and calls the subscriber. When the last listener left while the snapshot was still unstable and the geometry has not changed since, the recompute finds the same snapshot (src/core/engine.ts:197-199) and calls nobody. Such a subscriber is first called when the store settles or the geometry changes (`StoreProperties.ResubscribeToUnsettledStoreCallsNobody`).
- **Offsets.** Offsets are not sanitised. A numeric but non-finite `offsetTop`/`offsetLeft` reaches the snapshot as is (`Geometry.NonFiniteOffsetPassesThrough`). A NaN offset never compares equal, so every recompute that reads it replaces the snapshot, marks it unstable and calls every listener (`StoreProperties.NaNOffsetNeverSettles`). The stability timer can still mark it stable once no platform event follows.

## Model

| member | source | states |
|---|---|---|
| JsNumber.StrictEqualsIsEqualityButNaN | src/core/engine.ts:90-91 | `===` on numbers is equality except that NaN is unequal to everything, itself included |
| JsNumber.ClampMin | src/core/engine.ts:5 | the result is never below `min`; a finite value at or above `min` is kept; a non-finite or non-number value gives `min` |
| JsNumber.ClampMinIdempotent | src/core/engine.ts:5 | clamping an already clamped value changes nothing |
| JsNumber.Round2 | src/core/engine.ts:7 | the result is a whole number of hundredths within half a hundredth of the input (rounding half up) |
| JsNumber.Round2Monotone | src/core/engine.ts:7 | rounding to hundredths preserves order |
| JsNumber.Round2OfHundredths | src/core/engine.ts:7 | a value that is already whole hundredths is its own rounding |
| JsNumber.Round2Idempotent | src/core/engine.ts:7 | rounding twice is rounding once |
| JsNumber.Round2KeepsHundredthsFloor | src/core/engine.ts:7 | a value at or above a hundredths floor still is after rounding |
| JsNumber.RoundNum2 | src/core/engine.ts:72-73 | finite offsets are rounded to hundredths; NaN and ±Infinity pass through unchanged |
| Config.WithDefaults | src/core/engine.ts:99-106 | each option the caller set is kept; each one left out takes its default (150, 0.75, 120, 1, true, `{}`) |
| Config.NoOptionsGiveDefaults | src/core/engine.ts:99-106 | no options and `{}` give the same configuration, the documented defaults |
| Config.WithDefaultsRoundTrip | src/core/engine.ts:99-106 | a fully specified options object is resolved to exactly itself |
| Config.WithDefaultsIdempotent | src/core/engine.ts:99-106 | resolving an already resolved configuration again changes nothing |
| Config.GetSafeArea | src/core/engine.ts:9-17 | each inset side given by the caller is kept; a missing side is 0 |
| Config.DefaultSafeAreaIsZero | src/core/engine.ts:9-17 | without configured insets every side resolves to 0 |
| Geometry.ReadScale | src/core/engine.ts:26-27 | scale is 1 without a visual viewport or for a non-number scale; a finite numeric scale is kept when at least 0.01 and becomes 0.01 below it; NaN and ±Infinity become 0.01 |
| Geometry.VisualSide | src/core/engine.ts:29-33 | a finite numeric visual side is kept when at least the floor and becomes the floor below it; NaN and ±Infinity become the floor; a non-number one falls back to the layout side, itself floored |
| Geometry.ReadOffset | src/core/engine.ts:35-36 | a numeric offset is taken as is, even if non-finite; anything else is 0 |
| Geometry.Compensate | src/core/engine.ts:38-45 | the bottom inset is added exactly when it is positive and the layout/visual delta lies strictly between 0.8 and 2.5 insets |
| Geometry.CompensateWidth | src/core/engine.ts:47-54 | the width rule is the bottom rule applied to `left + right`; the outer `left > 0 or right > 0` test adds nothing |
| Geometry.Measure | src/core/engine.ts:19-63 | the layout sizes are `innerWidth`/`innerHeight` clamped to `minViewportPx`; the scale is the viewport's scale read as `ReadScale` does; with a visual viewport the visual sizes are its width/height read as `VisualSide` does, without one they are the layout sizes; all sizes are at least `minViewportPx` and scale at least 0.01; no visual viewport means layout sizes, scale 1, zero offsets and no keyboard; the compensation iff for height and for width, and the compensated value is the visual size plus the bottom inset, or plus the left and right insets; with a visual viewport each offset is the numeric reading as is, and 0 for a non-number; the effective size is the compensated visual size iff there is a visual viewport and (trust or scale = 1), otherwise the layout size; the keyboard is open iff all three heuristic conditions hold |
| Geometry.ComputeSnapshot | src/core/engine.ts:65-81 | every size is whole hundredths, at least the rounded floor, and within half a hundredth of the measured value; the snapshot is stable and stamped `now`; `hasVisualViewport` iff a visual viewport exists; the offsets are the measured offsets passed through `round2`, NaN and ±Infinity unchanged; without a visual viewport, width/height equal the layout and scale is 1 |
| Geometry.RoundedMeasurementIsWellFormed | src/core/engine.ts:65-81 | rounding a measurement that respects the floors gives a well-formed snapshot, and keeps scale 1 and zero offsets as they are |
| Geometry.SizesNeverBelowFloor | src/core/engine.ts:23-33 | with a floor that is whole hundredths, no snapshot size is below `minViewportPx` |
| Geometry.NoVisualViewportMeansLayout | src/core/engine.ts:26-36 | without a visual viewport: no keyboard, layout sizes, scale 1, offsets 0 |
| Geometry.NonNumberVisualReadingsFallBack | src/core/engine.ts:27-33 | a non-number width/height falls back to the layout; a non-number scale reads 1; a non-finite number hits the floor instead |
| Geometry.KeyboardImpliesVisualSource | src/core/engine.ts:56-63 | with a non-negative minimum delta, an open keyboard implies a trusted visual viewport whose height is more than the delta below the layout |
| Geometry.KeyboardMonotone | src/core/engine.ts:60-63 | a smaller effective height keeps an open keyboard open |
| Geometry.KeyboardBoundaryExamples | src/core/engine.ts:60-63 | for an 800 px layout: 599 is open, 650 is not (at ratio 0.75 or 0.6), and nothing is open without a visual viewport |
| Geometry.SameSnapshotIsEqualityUpToTs | src/core/engine.ts:84-97 | `sameSnapshot` holds iff the snapshots are equal apart from `ts` and no offset is NaN |
| Geometry.NonFiniteOffsetPassesThrough | src/core/engine.ts:35-36 | a numeric but non-finite `offsetTop` reaches the snapshot unchanged |
| Geometry.NoVisualViewportScenario | tests/edge.core.test.ts:42-51 | defaults, no visual viewport, 360 x 740: the snapshot is 360 x 740 without a visual viewport |
| Geometry.InvalidReadingsScenario | tests/edge.core.test.ts:64-105 | hostile readings give a finite width of 360, height at the 1 px floor and scale 1; offsetLeft -100 and the infinite offsetTop are kept |
| Geometry.VisualViewportScenario | tests/happy-path.core.test.ts:96-133 | 400 x 800 with a 400 x 700 visual viewport reports 700; after 500 in a 600 window it reports 500; no keyboard, under either trust setting |
| Scheduler.Init | src/core/scheduler.ts:9-13 | a new scheduler has both flags false, no ids and an empty host |
| Scheduler.AtMostOneOutstanding | src/core/scheduler.ts:10-13 | in every state of the invariant: at most one frame callback and one idle callback are pending, each exactly while its flag is set |
| Scheduler.ScheduleFrame | src/core/scheduler.ts:16-29 | ignored while a frame is queued; otherwise sets the flag and queues one microtask; the idle queue is untouched |
| Scheduler.ScheduleIdle | src/core/scheduler.ts:31-40 | ignored while an idle callback is queued; otherwise requests one with a fresh id; the frame queue is untouched |
| Scheduler.CancelAll | src/core/scheduler.ts:42-49 | afterwards both flags are false and both ids null; the referenced frame and idle requests are withdrawn |
| Scheduler.CancelAllIdempotent | src/core/scheduler.ts:42-49 | `cancelAll` twice equals `cancelAll` once |
| Scheduler.RunMicrotaskAsWritten | src/core/scheduler.ts:20-28 | `scheduleFrame`'s microtask as written: with `frameQueued` clear it only leaves the queue, touching neither frames nor `rafId`; with it set, a frame is requested for its callback under a fresh id that overwrites `rafId`, whatever `rafId` held before; the flags, the generation and the idle side are untouched |
| Scheduler.RunMicrotask | src/core/scheduler.ts:20-28 | the corrected microtask: one queued before the last `cancelAll` requests no frame |
| Scheduler.FireFrame | src/core/scheduler.ts:23-27 | firing a pending frame clears `rafId` and the flag before handing back the callback; the microtasks, the next id, the generation and the idle side are untouched; an unknown id does nothing |
| Scheduler.FireIdle | src/core/scheduler.ts:35-39 | firing a pending idle request clears `idleId` and the flag before handing back the callback; the microtasks, the next id, the generation and the frame side are untouched; an unknown id does nothing |
| Scheduler.ScheduleFramePreservesInv | src/core/scheduler.ts:16-29 | `scheduleFrame` keeps the scheduler invariant |
| Scheduler.CancelAllPreservesInv | src/core/scheduler.ts:42-49 | `cancelAll` keeps the scheduler invariant |
| Scheduler.RunMicrotaskPreservesInv | src/core/scheduler.ts:20-28 | the corrected microtask keeps the scheduler invariant |
| Scheduler.PendingFrameAbsorbsRequests | src/core/scheduler.ts:16-18 | while a frame is queued, any number of further requests change nothing |
| Scheduler.BurstKeepsFirst | src/core/scheduler.ts:16-18 | a burst of requests has the effect of its first request alone |
| Scheduler.BurstRunsFirstExactlyOnce | src/core/scheduler.ts:16-27 | N requests, then the microtask and the frame: the first callback is handed back once and nothing stays pending |
| Scheduler.ScheduleFromCallbackIsQueued | src/core/scheduler.ts:23-26 | a request issued from inside a running frame callback opens a new window and is queued |
| Scheduler.CancelBeforeMicrotaskDropsRequest | src/core/scheduler.ts:20-49 | `cancelAll` between `scheduleFrame` and its microtask leaves nothing pending, and the microtask requests no frame, as written and corrected alike (both give the same state there) |
| Scheduler.QueuesAreIndependent | src/core/scheduler.ts:16-40 | a pending frame never suppresses an idle request, nor the reverse |
| Scheduler.RunMicrotaskAgreesWhenCurrent | src/core/scheduler.ts:20-28 | the corrected microtask and the one as written agree unless the head microtask is stale while a frame is queued |
| Scheduler.CancelThenRescheduleLeaksFrame | src/core/scheduler.ts:16-49 | as written, `scheduleFrame(1); cancelAll(); scheduleFrame(2)` requests two frames, so the cancelled callback 1 runs and `cancelAll` can no longer reach frame 1 |
| Scheduler.CancelThenRescheduleCorrected | src/core/scheduler.ts:16-49 | with the corrected microtask the same calls request one frame, for callback 2 only |
| Scheduler.ApplyPreservesInv | src/core/scheduler.ts:9-51 | every scheduler operation keeps the invariant |
| Scheduler.AtMostOneOutstandingAlways | src/core/scheduler.ts:9-51 | along every trace of the corrected scheduler, at most one frame and one idle callback are outstanding |
| ViewportStore.AddListener | src/core/engine.ts:262 | a listener already present leaves the sequence unchanged; a new one is appended last; the set stays duplicate-free |
| ViewportStore.RemoveListener | src/core/engine.ts:270 | removing keeps exactly the other listeners, duplicate-free; a present listener is cut out at its position, the others keeping their order |
| ViewportStore.Create | src/core/engine.ts:146-170 | off-host a degraded store; on a host the resolved config and the snapshot measured at creation, stable, with `lastChangeAt` equal to its `ts`, no listeners, detached, and the store invariant established |
| ViewportStore.GetSnapshot | src/core/engine.ts:151-153 | off-host it fails with a usage error; on a host it returns the current snapshot |
| ViewportStore.GetServerSnapshot | src/core/engine.ts:154 | always `null` |
| ViewportStore.SetStable | src/core/engine.ts:171-176 | no-op when destroyed or unchanged; otherwise flips the flag, stamps `now` and calls every listener |
| ViewportStore.ArmStabilityTimer | src/core/engine.ts:178-182 | clears the referenced timer and leaves an idle callback queued |
| ViewportStore.StartTimer | src/core/engine.ts:182-190 | unless destroyed, starts a timer due `stableDelayMs` after now and references it |
| ViewportStore.TimerCallback | src/core/engine.ts:185-189 | the fired timer is consumed and nothing else but the snapshot changes; the snapshot either stays or becomes the same snapshot marked stable and stamped `now`; the flag changes only to stable, only when live and at least `stableDelayMs` has passed since the last change, and always does when those hold; every listener is called exactly when the snapshot changed, nobody otherwise; an already stable snapshot is left as it is and nobody is called |
| ViewportStore.Recompute | src/core/engine.ts:193-206 | unless destroyed: if the unstable candidate differs by `sameSnapshot` it replaces the snapshot, sets `lastChangeAt` to now and calls every listener; otherwise nothing but the timer re-arming changes; apart from the snapshot and `lastChangeAt`, the new state is exactly the re-armed state |
| ViewportStore.Attach | src/core/engine.ts:214-228 | only a live, detached store attaches, and attaching queues a recompute |
| ViewportStore.Detach | src/core/engine.ts:230-241 | afterwards the store is detached, nothing else changes |
| ViewportStore.Subscribe | src/core/engine.ts:259-267 | a destroyed store ignores it; otherwise the listener is appended unless present, the store attaches if it had no listener, and a frame is pending afterwards; the listener's own first call is queued only if no frame was: an attached store with no frame pending queues exactly that call, while for the first subscriber of a detached store the frame holds the attach recompute instead; nothing but the listeners, `attached` and the scheduler changes |
| ViewportStore.Unsubscribe | src/core/engine.ts:269-272 | the listener is removed as `RemoveListener` does, the others keeping their order; with no listener left the store detaches, otherwise `attached` is kept; nothing else changes |
| ViewportStore.Destroy | src/core/engine.ts:243-254 | the first call detaches, cancels all scheduled work, clears the timer and every listener, and keeps the configuration, the snapshot, `lastChangeAt` and the timer counter; later calls do nothing |
| ViewportStore.ViewportEvent | src/core/engine.ts:208 | while attached a platform event queues a recompute; otherwise it does nothing |
| ViewportStore.RunJob | src/core/engine.ts:265-267 | the per-subscriber first call reaches the listener only if the store is live and it is still subscribed |
| ViewportStore.StepStore | src/core/engine.ts:149-157 | the degraded store ignores every call |
| ViewportStore.RecomputePreservesInv | src/core/engine.ts:193-206 | a recompute keeps the store invariant |
| ViewportStore.ArmStabilityTimerRestoresInv | src/core/engine.ts:178-191 | re-arming a live store whose pending timers are at most the referenced one establishes the whole store invariant, the pending check included |
| ViewportStore.StepPreservesInv | src/core/engine.ts:146-275 | every admissible event keeps the store invariant, including: an unstable live store always has its stability check pending |
| StoreProperties.RunPreservesInv | src/core/engine.ts:146-275 | the store invariant holds after any admissible event sequence |
| StoreProperties.OffHostStoreIsInert | src/core/engine.ts:149-157 | off-host: `getSnapshot` fails, `getServerSnapshot` is `null`, every call does nothing |
| StoreProperties.CreatedSnapshotReadsBack | src/core/engine.ts:163-164 | a new store reads back the snapshot measured at creation, marked stable |
| StoreProperties.NotifiedAreSubscribers | src/core/engine.ts:171-267 | only current subscribers of a live store are called, either all in subscription order or a single one |
| StoreProperties.StepKeepsOutsiderOut | src/core/engine.ts:259-272 | an unsubscribed listener stays out and uncalled unless the event subscribes it |
| StoreProperties.OnlySubscribersAreNotified | src/core/engine.ts:259-272 | along any event sequence, a listener is never called unless some event subscribes it |
| StoreProperties.StableOnlyAfterQuietPeriod | src/core/engine.ts:185-189 | a snapshot becomes stable only when a pending timer fires at least `stableDelayMs` after the last change, and every listener is then called |
| StoreProperties.UnstableOnlyThroughRecompute | src/core/engine.ts:193-206 | a stable snapshot becomes unstable only through a recompute run by a frame callback, which calls every listener |
| StoreProperties.DueTimerStabilizes | src/core/engine.ts:185-189 | once its timer is due, an unstable live store becomes stable, stamped now, and calls every listener |
| StoreProperties.StabilizesAfterIdleAndTimer | src/core/engine.ts:178-191 | an unstable store becomes stable after its idle callback and the timer it starts fire `stableDelayMs` apart |
| StoreProperties.SnapshotClockOnlyInTs | src/core/engine.ts:65-81 | the measured snapshot depends on the clock only through `ts` |
| StoreProperties.RecomputeSettles | src/core/engine.ts:193-206 | with unchanged geometry and no NaN offset, a second recompute calls nobody and keeps the snapshot |
| StoreProperties.NaNOffsetNeverSettles | src/core/engine.ts:84-97 | with a NaN offset every recompute replaces the snapshot and calls every listener |
| StoreProperties.UnchangedGeometryUnsettlesStable | src/core/engine.ts:196-203 | a stable snapshot with unchanged geometry still becomes unstable on recompute, calling every listener |
| StoreProperties.FirstSubscriberReachedThroughRecompute | src/core/engine.ts:259-267 | the first subscriber of a new store (whose snapshot is stable): its own call is coalesced away behind the attach recompute, and that recompute calls it exactly once |
| StoreProperties.ResubscribeToUnsettledStoreCallsNobody | src/core/engine.ts:193-206 | a subscriber joining a detached live store whose unstable snapshot matches the unchanged geometry is called by nobody through the subscription's frame: its own call is coalesced away and the attach recompute finds the same snapshot |
| StoreProperties.SubscribeWhileFramePendingQueuesNothing | src/core/engine.ts:265-267 | a subscription while a frame is pending queues nothing, so its first call is dropped |
| StoreProperties.SameTickSecondSubscriberQueuesNothing | src/core/engine.ts:259-267 | two subscriptions in one tick on an attached store with no frame pending queue only the first one's call; the second joins the listeners with no call queued for it |
| StoreProperties.UnsubscribeIdempotent | src/core/engine.ts:269-272 | unsubscribing twice equals unsubscribing once |
| StoreProperties.ResubscribeReattaches | src/core/engine.ts:214-218 | after the last listener leaves, a new subscriber re-attaches and queues a recompute |
| StoreProperties.AttachedExactlyWhileSubscribed | src/core/engine.ts:262-272 | after any event the platform listeners are registered iff the store is live and has a subscriber |
| StoreProperties.DetachedIgnoresPlatformEvents | tests/happy-path.core.test.ts:147-160 | a platform event after the last unsubscribe leaves the whole state unchanged |
| StoreProperties.DestroyIdempotent | src/core/engine.ts:243-254 | destroying twice equals destroying once |
| StoreProperties.DestroyedStepIsInert | src/core/engine.ts:243-254 | one event on a destroyed store calls nobody and changes neither snapshot nor listeners |
| StoreProperties.DestroyedStaysInert | src/core/engine.ts:243-260 | on a destroyed store no event sequence calls anyone or changes the snapshot |
| StoreProperties.NothingAfterDestroy | src/core/engine.ts:243-260 | after `destroy`, no event sequence calls a listener or changes the snapshot |
| StoreProperties.StoreMicrotaskAgreesAsWritten | src/core/scheduler.ts:20-28 | in every state the store can reach, `scheduleFrame`'s microtask as written and the corrected one do the same |

## Left out

- Floating point: numbers are reals, so IEEE-754 rounding error is not modelled. `round2` is `floor(100x + 0.5) / 100`, which is `Math.round` over the reals, and comparisons are exact.
- Option values of the wrong type (such as `stableDelayMs: "50"`) or non-finite option values: every option field is a real or a boolean.
- Host readings whose getters throw (the environment-error test): a reading is a number or not a number. Throwing is not modelled.
- `src/core/env.ts` is not part of this model. `canUseDOM` is the `canUseDom` argument of `Create`. `now()` arrives in each `Env`. `requestAnimationFrame`, `requestIdleCallback`, `queueMicrotask` and `setTimeout` are the explicit host queues, and the host chooses when to fire them.
- The host clock is assumed monotonic: `Admissible` requires each callback's `now` to be at or after the last change and a timer to fire no earlier than its due time. Firing order and delay beyond that are not constrained.
- Real DOM listener registration is the `attached` flag. The five platform events (visual-viewport resize and scroll; window orientationchange, resize and pageshow) are one `PlatformEvent`. The visual viewport captured once at creation is not tracked.
- Listeners are opaque identities. Calling back into the store from a listener, and exceptions thrown by a listener, are not modelled.
- ViewportStore.Subscribe: the unsubscribe closure it returns is the separate `UnsubscribeCall` event. The no-op closure a destroyed store returns is that event acting on a destroyed store, where it also changes nothing.
- Geometry.ComputeSnapshot: the floor is stated as `Round2(minViewportPx)`, because the snapshot rounds after clamping. `minViewportPx` itself is guaranteed only when it is a whole number of hundredths (`Geometry.SizesNeverBelowFloor`), which the default 1 is.
- Framework adapters (`src/react.ts`, `src/vue.ts`, `src/solid.ts`, `src/svelte.ts`, `src/angular.ts`, `src/vanilla.ts`), re-export barrels and the install banner are glue around the store contract.
- `src/core/types.ts` has only declarations; it supplies the datatypes.

## Findings

| source | as written | input that shows it | evidently intended | confidence | as-written member | corrected member |
|---|---|---|---|---|---|---|
| src/core/scheduler.ts:20-28 | the queued microtask requests a frame whenever `frameQueued` is set; it never checks that it still belongs to the window a later `cancelAll` closed | `scheduleFrame(f1); cancelAll(); scheduleFrame(f2);` then both microtasks run | a microtask queued before `cancelAll` requests nothing, so only `f2` gets a frame, at most one frame is ever outstanding, and a cancelled `f1` never runs | not executed; high that the traces differ, the store itself never reaches it | Scheduler.CancelThenRescheduleLeaksFrame | Scheduler.RunMicrotask |

The corrected scheduler stamps each microtask with a generation that `cancelAll` advances, and drops stale microtasks. `Scheduler.AtMostOneOutstandingAlways` proves the intended bound for it over every trace. The store calls `cancelAll` only from `destroy` and never schedules afterwards. So on every state the store reaches, the two microtasks agree (`StoreProperties.StoreMicrotaskAgreesAsWritten`), and the store model uses the corrected scheduler.

=== FILE: config.dfy ===
/**
 * Store options (src/core/types.ts) and their resolution into a configuration
 * with the documented defaults (`withDefaults` and `getSafeArea` in
 * src/core/engine.ts).
 */
module Config {
  import opened Wrappers

  /** Caller-supplied safe-area insets in CSS px; every side is optional. */
  datatype Insets = Insets(top: Option<real>, right: Option<real>, bottom: Option<real>, left: Option<real>)

  /** The options object a caller may pass; every field is optional. */
  datatype Options = Options(
    stableDelayMs: Option<real>,
    keyboardRatio: Option<real>,
    keyboardMinDeltaPx: Option<real>,
    minViewportPx: Option<real>,
    trustVisualViewportUnderZoom: Option<bool>,
    safeAreaInsets: Option<Insets>)

  /** The resolved configuration a store is built with. The insets stay partial: sides are resolved on use. */
  datatype Config = Config(
    stableDelayMs: real,
    keyboardRatio: real,
    keyboardMinDeltaPx: real,
    minViewportPx: real,
    trustVisualViewportUnderZoom: bool,
    safeAreaInsets: Insets)

  /** Safe-area insets with every side resolved to a number. */
  datatype SafeArea = SafeArea(top: real, right: real, bottom: real, left: real)

  const DefaultStableDelayMs: real := 150.0
  const DefaultKeyboardRatio: real := 0.75
  const DefaultKeyboardMinDeltaPx: real := 120.0
  const DefaultMinViewportPx: real := 1.0
  const DefaultTrustVisualViewportUnderZoom: bool := true

  /** The options object with no field set (`{}`, or no argument at all). */
  const NoOptions: Options := Options(None, None, None, None, None, None)

  /** The empty insets object `{}`. */
  const NoInsets: Insets := Insets(None, None, None, None)

  /** `withDefaults(options)`: each option the caller set is kept, each one left out takes its default. */
  function WithDefaults(options: Option<Options>): (c: Config)
    ensures c.stableDelayMs == (if options.Some? && options.value.stableDelayMs.Some? then options.value.stableDelayMs.value else DefaultStableDelayMs)
    ensures c.keyboardRatio == (if options.Some? && options.value.keyboardRatio.Some? then options.value.keyboardRatio.value else DefaultKeyboardRatio)
    ensures c.keyboardMinDeltaPx == (if options.Some? && options.value.keyboardMinDeltaPx.Some? then options.value.keyboardMinDeltaPx.value else DefaultKeyboardMinDeltaPx)
    ensures c.minViewportPx == (if options.Some? && options.value.minViewportPx.Some? then options.value.minViewportPx.value else DefaultMinViewportPx)
    ensures c.trustVisualViewportUnderZoom == (if options.Some? && options.value.trustVisualViewportUnderZoom.Some? then options.value.trustVisualViewportUnderZoom.value else DefaultTrustVisualViewportUnderZoom)
    ensures c.safeAreaInsets == (if options.Some? && options.value.safeAreaInsets.Some? then options.value.safeAreaInsets.value else NoInsets)
  {
    var o := options.GetOr(NoOptions);
    Config(
      o.stableDelayMs.GetOr(DefaultStableDelayMs),
      o.keyboardRatio.GetOr(DefaultKeyboardRatio),
      o.keyboardMinDeltaPx.GetOr(DefaultKeyboardMinDeltaPx),
      o.minViewportPx.GetOr(DefaultMinViewportPx),
      o.trustVisualViewportUnderZoom.GetOr(DefaultTrustVisualViewportUnderZoom),
      o.safeAreaInsets.GetOr(NoInsets))
  }

  /** The options object that sets every field of `c` explicitly. */
  function ToOptions(c: Config): Options {
    Options(Some(c.stableDelayMs), Some(c.keyboardRatio), Some(c.keyboardMinDeltaPx),
            Some(c.minViewportPx), Some(c.trustVisualViewportUnderZoom), Some(c.safeAreaInsets))
  }

  /** The configuration every defaulted store uses. */
  function Defaults(): Config {
    Config(DefaultStableDelayMs, DefaultKeyboardRatio, DefaultKeyboardMinDeltaPx,
           DefaultMinViewportPx, DefaultTrustVisualViewportUnderZoom, NoInsets)
  }

  /** Passing no options and passing `{}` are the same: both give the documented defaults. */
  lemma NoOptionsGiveDefaults()
    ensures WithDefaults(None) == WithDefaults(Some(NoOptions)) == Defaults()
    ensures Defaults().stableDelayMs == 150.0 && Defaults().keyboardRatio == 0.75
    ensures Defaults().keyboardMinDeltaPx == 120.0 && Defaults().minViewportPx == 1.0
    ensures Defaults().trustVisualViewportUnderZoom
  {
  }

  /** A fully specified options object is taken as is: resolution loses nothing. */
  lemma WithDefaultsRoundTrip(c: Config)
    ensures WithDefaults(Some(ToOptions(c))) == c
  {
  }

  /** Resolving an already resolved configuration again changes nothing. */
  lemma WithDefaultsIdempotent(options: Option<Options>)
    ensures WithDefaults(Some(ToOptions(WithDefaults(options)))) == WithDefaults(options)
  {
    WithDefaultsRoundTrip(WithDefaults(options));
  }

  /** `getSafeArea(opt)`: each side the caller gave, and 0 for each side left out. */
  function GetSafeArea(c: Config): (s: SafeArea)
    ensures s.top == c.safeAreaInsets.top.GetOr(0.0)
    ensures s.right == c.safeAreaInsets.right.GetOr(0.0)
    ensures s.bottom == c.safeAreaInsets.bottom.GetOr(0.0)
    ensures s.left == c.safeAreaInsets.left.GetOr(0.0)
  {
    var i := c.safeAreaInsets;
    SafeArea(i.top.GetOr(0.0), i.right.GetOr(0.0), i.bottom.GetOr(0.0), i.left.GetOr(0.0))
  }

  /** With no insets configured, every side resolves to 0. */
  lemma DefaultSafeAreaIsZero(options: Option<Options>)
    requires options.None? || options.value.safeAreaInsets.None?
    ensures GetSafeArea(WithDefaults(options)) == SafeArea(0.0, 0.0, 0.0, 0.0)
  {
  }
}

=== FILE: geometry.dfy ===
/**
 * The deterministic half of the snapshot engine (src/core/engine.ts):
 * `computeSnapshot`, which turns raw host readings into a normalised snapshot,
 * and `sameSnapshot`, the equality used to decide whether to notify.
 * The host's readings (`window.inner*`, `window.visualViewport`) and the clock
 * are parameters.
 */
module Geometry {
  import opened Wrappers
  import opened JsNumber
  import opened Config

  /** The host's visual-viewport object: each property is whatever its getter returns. */
  datatype VisualViewport = VisualViewport(
    width: Reading, height: Reading, scale: Reading, offsetLeft: Reading, offsetTop: Reading)

  /** What the engine reads from the host at one instant. */
  datatype HostReadings = HostReadings(
    innerWidth: Reading, innerHeight: Reading, visualViewport: Option<VisualViewport>)

  /** An immutable snapshot of the viewport (the `ViewportTruthSnapshot` type). */
  datatype Snapshot = Snapshot(
    width: real, height: real,
    layoutWidth: real, layoutHeight: real,
    offsetLeft: Num, offsetTop: Num,
    scale: real,
    isKeyboardOpen: bool, isStable: bool, hasVisualViewport: bool,
    ts: real)

  /** The floor applied to a numeric zoom scale. */
  const MinScale: real := 0.01

  /** The zoom scale: 1 without a visual viewport or when its scale is not a number, otherwise clamped to `MinScale`. */
  function ReadScale(vv: Option<VisualViewport>): (r: real)
    ensures r >= MinScale
    ensures vv.None? || vv.value.scale.NotNumber? ==> r == 1.0
    ensures vv.Some? && vv.value.scale.Number? && !vv.value.scale.n.Finite? ==> r == MinScale
    ensures vv.Some? && IsFinite(vv.value.scale) && vv.value.scale.n.v >= MinScale ==> r == vv.value.scale.n.v
    ensures vv.Some? && IsFinite(vv.value.scale) && vv.value.scale.n.v < MinScale ==> r == MinScale
  {
    if vv.Some? && vv.value.scale.Number? then ClampMin(vv.value.scale, MinScale) else 1.0
  }

  /**
   * One visual-viewport side (`side` is None without a visual viewport): a numeric
   * reading is taken, anything else falls back to the layout side; the result is clamped.
   */
  function VisualSide(side: Option<Reading>, layout: real, min: real): (r: real)
    ensures r >= min
    ensures (side.None? || side.value.NotNumber?) && layout >= min ==> r == layout
    ensures side.Some? && side.value.Number? && !side.value.n.Finite? ==> r == min
    ensures side.Some? && IsFinite(side.value) && side.value.n.v >= min ==> r == side.value.n.v
    ensures side.Some? && IsFinite(side.value) && side.value.n.v < min ==> r == min
    ensures (side.None? || side.value.NotNumber?) && layout < min ==> r == min
  {
    var raw := if side.Some? && side.value.Number? then side.value else Number(Finite(layout));
    ClampMin(raw, min)
  }

  /** One visual-viewport offset: a number is taken as is (even a non-finite one), anything else is 0. */
  function ReadOffset(side: Option<Reading>): (r: Num)
    ensures side.None? || side.value.NotNumber? ==> r == Finite(0.0)
    ensures side.Some? && side.value.Number? ==> r == side.value.n
  {
    if side.Some? && side.value.Number? then side.value.n else Finite(0.0)
  }

  /**
   * Bottom safe-area compensation: the inset is added back to the visual height exactly
   * when it is positive and the layout/visual delta lies strictly between 0.8 and 2.5 insets.
   */
  function Compensate(visual: real, layout: real, inset: real): (r: real)
    ensures r == visual || r == visual + inset
    ensures r != visual <==> inset > 0.0 && inset * 0.8 < layout - visual < inset * 2.5
  {
    if inset > 0.0 then
      var delta := layout - visual;
      if delta > inset * 0.8 && delta < inset * 2.5 then visual + inset else visual
    else
      visual
  }

  /**
   * Width compensation as the code writes it, with its outer `left > 0 || right > 0`
   * guard; it is the bottom rule applied to `left + right`.
   */
  function CompensateWidth(visual: real, layout: real, left: real, right: real): (r: real)
    ensures r == Compensate(visual, layout, left + right)
  {
    if left > 0.0 || right > 0.0 then
      var delta := layout - visual;
      var sum := left + right;
      if sum > 0.0 && delta > sum * 0.8 && delta < sum * 2.5 then visual + sum else visual
    else
      visual
  }

  /** Whether the effective size comes from the visual viewport rather than the layout viewport. */
  predicate TrustsVisual(hasVisualViewport: bool, trustUnderZoom: bool, scale: real) {
    hasVisualViewport && (trustUnderZoom || scale == 1.0)
  }

  /** The keyboard heuristic: a visual viewport, a ratio deficit and an absolute deficit. */
  predicate KeyboardHeuristic(hasVisualViewport: bool, effectiveHeight: real, layoutHeight: real,
                              ratio: real, minDelta: real)
  {
    && hasVisualViewport
    && effectiveHeight < layoutHeight * ratio
    && layoutHeight - effectiveHeight > minDelta
  }

  /** The unrounded quantities `computeSnapshot` derives before building the snapshot. */
  datatype Measurement = Measurement(
    layoutWidth: real, layoutHeight: real,
    visualWidth: real, visualHeight: real,
    width: real, height: real,
    effectiveWidth: real, effectiveHeight: real,
    scale: real, offsetLeft: Num, offsetTop: Num,
    hasVisualViewport: bool, isKeyboardOpen: bool)

  /** The measuring part of `computeSnapshot`, before rounding. */
  function Measure(host: HostReadings, c: Config): (m: Measurement)
    ensures m.layoutWidth >= c.minViewportPx && m.layoutHeight >= c.minViewportPx
    ensures m.visualWidth >= c.minViewportPx && m.visualHeight >= c.minViewportPx
    ensures m.effectiveWidth >= c.minViewportPx && m.effectiveHeight >= c.minViewportPx
    ensures m.scale >= MinScale
    ensures m.hasVisualViewport <==> host.visualViewport.Some?
    ensures m.layoutWidth == ClampMin(host.innerWidth, c.minViewportPx)
    ensures m.layoutHeight == ClampMin(host.innerHeight, c.minViewportPx)
    ensures m.scale == ReadScale(host.visualViewport)
    ensures host.visualViewport.Some? ==>
              && m.visualWidth == VisualSide(Some(host.visualViewport.value.width), m.layoutWidth, c.minViewportPx)
              && m.visualHeight == VisualSide(Some(host.visualViewport.value.height), m.layoutHeight, c.minViewportPx)
    ensures host.visualViewport.None? ==> m.visualWidth == m.layoutWidth && m.visualHeight == m.layoutHeight
    ensures host.visualViewport.None? ==>
              && m.effectiveWidth == m.layoutWidth && m.effectiveHeight == m.layoutHeight
              && m.scale == 1.0 && m.offsetLeft == Finite(0.0) && m.offsetTop == Finite(0.0)
              && !m.isKeyboardOpen
    ensures var bottom := GetSafeArea(c).bottom;
            m.height != m.visualHeight <==>
              bottom > 0.0 && bottom * 0.8 < m.layoutHeight - m.visualHeight < bottom * 2.5
    ensures m.height == m.visualHeight || m.height == m.visualHeight + GetSafeArea(c).bottom
    ensures var sum := GetSafeArea(c).left + GetSafeArea(c).right;
            m.width != m.visualWidth <==>
              sum > 0.0 && sum * 0.8 < m.layoutWidth - m.visualWidth < sum * 2.5
    ensures m.width == m.visualWidth || m.width == m.visualWidth + GetSafeArea(c).left + GetSafeArea(c).right
    ensures host.visualViewport.Some? ==>
              var vv := host.visualViewport.value;
              && m.offsetLeft == (if vv.offsetLeft.Number? then vv.offsetLeft.n else Finite(0.0))
              && m.offsetTop == (if vv.offsetTop.Number? then vv.offsetTop.n else Finite(0.0))
    ensures TrustsVisual(m.hasVisualViewport, c.trustVisualViewportUnderZoom, m.scale) ==>
              m.effectiveWidth == m.width && m.effectiveHeight == m.height
    ensures !TrustsVisual(m.hasVisualViewport, c.trustVisualViewportUnderZoom, m.scale) ==>
              m.effectiveWidth == m.layoutWidth && m.effectiveHeight == m.layoutHeight
    ensures m.isKeyboardOpen <==>
              KeyboardHeuristic(m.hasVisualViewport, m.effectiveHeight, m.layoutHeight,
                                c.keyboardRatio, c.keyboardMinDeltaPx)
  {
    var min := c.minViewportPx;
    var vv := host.visualViewport;
    var hasVisualViewport := vv.Some?;
    var layoutWidth := ClampMin(host.innerWidth, min);
    var layoutHeight := ClampMin(host.innerHeight, min);
    var scale := ReadScale(vv);
    var visualWidth := VisualSide(if vv.Some? then Some(vv.value.width) else None, layoutWidth, min);
    var visualHeight := VisualSide(if vv.Some? then Some(vv.value.height) else None, layoutHeight, min);
    var offsetLeft := ReadOffset(if vv.Some? then Some(vv.value.offsetLeft) else None);
    var offsetTop := ReadOffset(if vv.Some? then Some(vv.value.offsetTop) else None);
    var safe := GetSafeArea(c);
    var height := Compensate(visualHeight, layoutHeight, safe.bottom);
    var width := CompensateWidth(visualWidth, layoutWidth, safe.left, safe.right);
    var trusted := TrustsVisual(hasVisualViewport, c.trustVisualViewportUnderZoom, scale);
    var effectiveWidth := if trusted then width else layoutWidth;
    var effectiveHeight := if trusted then height else layoutHeight;
    var isKeyboardOpen :=
      KeyboardHeuristic(hasVisualViewport, effectiveHeight, layoutHeight, c.keyboardRatio, c.keyboardMinDeltaPx);
    Measurement(layoutWidth, layoutHeight, visualWidth, visualHeight, width, height,
                effectiveWidth, effectiveHeight, scale, offsetLeft, offsetTop,
                hasVisualViewport, isKeyboardOpen)
  }

  /** Every real field of a snapshot is a whole number of hundredths. */
  predicate Rounded(s: Snapshot) {
    && IsHundredths(s.width) && IsHundredths(s.height)
    && IsHundredths(s.layoutWidth) && IsHundredths(s.layoutHeight)
    && IsHundredths(s.scale)
  }

  /**
   * The invariant every snapshot of a store with configuration `c` keeps: sizes never below
   * the (rounded) floor, the scale never below its floor, and no keyboard without a visual viewport.
   */
  predicate WellFormed(s: Snapshot, c: Config) {
    && Rounded(s)
    && s.width >= Round2(c.minViewportPx) && s.height >= Round2(c.minViewportPx)
    && s.layoutWidth >= Round2(c.minViewportPx) && s.layoutHeight >= Round2(c.minViewportPx)
    && s.scale >= MinScale
    && (s.isKeyboardOpen ==> s.hasVisualViewport)
  }

  /** `computeSnapshot(opt)` at time `now`: the measurement rounded to hundredths, marked stable. */
  function ComputeSnapshot(host: HostReadings, c: Config, now: real): (r: Snapshot)
    ensures WellFormed(r, c)
    ensures r.isStable && r.ts == now
    ensures r.hasVisualViewport <==> host.visualViewport.Some?
    ensures var m := Measure(host, c);
            && r.width - 0.005 <= m.effectiveWidth < r.width + 0.005
            && r.height - 0.005 <= m.effectiveHeight < r.height + 0.005
            && r.layoutWidth - 0.005 <= m.layoutWidth < r.layoutWidth + 0.005
            && r.layoutHeight - 0.005 <= m.layoutHeight < r.layoutHeight + 0.005
            && r.scale - 0.005 <= m.scale < r.scale + 0.005
            && r.isKeyboardOpen == m.isKeyboardOpen
    ensures host.visualViewport.None? ==>
              && r.width == r.layoutWidth && r.height == r.layoutHeight
              && r.scale == 1.0 && r.offsetLeft == Finite(0.0) && r.offsetTop == Finite(0.0)
              && !r.isKeyboardOpen
    ensures var m := Measure(host, c);
            r.offsetLeft == RoundNum2(m.offsetLeft) && r.offsetTop == RoundNum2(m.offsetTop)
  {
    var m := Measure(host, c);
    RoundedMeasurementIsWellFormed(m, c, now);
    RoundMeasurement(m, now)
  }

  /** A measurement rounded to hundredths as a stable snapshot taken at `now`. */
  function RoundMeasurement(m: Measurement, now: real): Snapshot {
    Snapshot(
      Round2(m.effectiveWidth), Round2(m.effectiveHeight),
      Round2(m.layoutWidth), Round2(m.layoutHeight),
      RoundNum2(m.offsetLeft), RoundNum2(m.offsetTop),
      Round2(m.scale),
      m.isKeyboardOpen, true, m.hasVisualViewport,
      now)
  }

  /**
   * Rounding keeps the floors a measurement respects, and leaves the neutral values of a
   * host without a visual viewport (scale 1, offsets 0) as they are.
   */
  lemma RoundedMeasurementIsWellFormed(m: Measurement, c: Config, now: real)
    requires m.effectiveWidth >= c.minViewportPx && m.effectiveHeight >= c.minViewportPx
    requires m.layoutWidth >= c.minViewportPx && m.layoutHeight >= c.minViewportPx
    requires m.scale >= MinScale
    requires m.isKeyboardOpen ==> m.hasVisualViewport
    ensures WellFormed(RoundMeasurement(m, now), c)
    ensures m.scale == 1.0 ==> RoundMeasurement(m, now).scale == 1.0
    ensures m.offsetLeft == Finite(0.0) ==> RoundMeasurement(m, now).offsetLeft == Finite(0.0)
    ensures m.offsetTop == Finite(0.0) ==> RoundMeasurement(m, now).offsetTop == Finite(0.0)
  {
    var min := c.minViewportPx;
    Round2Monotone(min, m.effectiveWidth);
    Round2Monotone(min, m.effectiveHeight);
    Round2Monotone(min, m.layoutWidth);
    Round2Monotone(min, m.layoutHeight);
    Round2Monotone(MinScale, m.scale);
    Round2OfHundredths(MinScale);
    Round2OfHundredths(1.0);
    Round2OfHundredths(0.0);
  }

  /** With the default floor of 1 px (or any whole number of hundredths) the floor holds exactly. */
  lemma SizesNeverBelowFloor(host: HostReadings, c: Config, now: real)
    requires IsHundredths(c.minViewportPx)
    ensures var r := ComputeSnapshot(host, c, now);
            && r.width >= c.minViewportPx && r.height >= c.minViewportPx
            && r.layoutWidth >= c.minViewportPx && r.layoutHeight >= c.minViewportPx
  {
    Round2OfHundredths(c.minViewportPx);
  }

  /** Without a visual viewport the snapshot is the layout viewport: scale 1, no offsets, no keyboard. */
  lemma NoVisualViewportMeansLayout(host: HostReadings, c: Config, now: real)
    requires host.visualViewport.None?
    ensures var r := ComputeSnapshot(host, c, now);
            && !r.hasVisualViewport && !r.isKeyboardOpen
            && r.width == r.layoutWidth && r.height == r.layoutHeight
            && r.layoutWidth == Round2(ClampMin(host.innerWidth, c.minViewportPx))
            && r.layoutHeight == Round2(ClampMin(host.innerHeight, c.minViewportPx))
            && r.scale == 1.0 && r.offsetLeft == Finite(0.0) && r.offsetTop == Finite(0.0)
  {
  }

  /**
   * A visual viewport whose width/height is not a number falls back to the layout side, and a
   * scale that is not a number reads as 1; a non-finite numeric scale instead hits the 0.01 floor
   * and a non-finite numeric height hits the size floor.
   */
  lemma NonNumberVisualReadingsFallBack(host: HostReadings, c: Config)
    requires host.visualViewport.Some?
    ensures var m := Measure(host, c);
            var vv := host.visualViewport.value;
            && (vv.width.NotNumber? ==> m.visualWidth == m.layoutWidth)
            && (vv.height.NotNumber? ==> m.visualHeight == m.layoutHeight)
            && (vv.scale.NotNumber? ==> m.scale == 1.0)
            && (vv.scale.Number? && !vv.scale.n.Finite? ==> m.scale == MinScale)
            && (vv.height.Number? && !vv.height.n.Finite? ==> m.visualHeight == c.minViewportPx)
  {
  }

  /**
   * When the minimum keyboard delta is not negative, an open keyboard implies that the effective
   * height came from the (compensated) visual viewport and is more than that delta below the layout.
   */
  lemma KeyboardImpliesVisualSource(host: HostReadings, c: Config)
    requires c.keyboardMinDeltaPx >= 0.0
    ensures var m := Measure(host, c);
            m.isKeyboardOpen ==>
              && m.hasVisualViewport
              && TrustsVisual(m.hasVisualViewport, c.trustVisualViewportUnderZoom, m.scale)
              && m.effectiveHeight == m.height
              && m.effectiveHeight < m.layoutHeight - c.keyboardMinDeltaPx
  {
  }

  /** The keyboard heuristic is monotone: a smaller effective height keeps an open keyboard open. */
  lemma KeyboardMonotone(hasVisualViewport: bool, h: real, h': real, layoutHeight: real,
                         ratio: real, minDelta: real)
    requires h' <= h
    requires KeyboardHeuristic(hasVisualViewport, h, layoutHeight, ratio, minDelta)
    ensures KeyboardHeuristic(hasVisualViewport, h', layoutHeight, ratio, minDelta)
  {
  }

  /**
   * The boundary examples for layout height 800, ratio 0.75 and minimum delta 120: height 599
   * opens the keyboard; height 650 does not, because 650 is not below 800 * 0.75 = 600; with
   * ratio 0.6 it does not either.
   */
  lemma KeyboardBoundaryExamples()
    ensures KeyboardHeuristic(true, 599.0, 800.0, 0.75, 120.0)
    ensures !KeyboardHeuristic(true, 650.0, 800.0, 0.75, 120.0)
    ensures !KeyboardHeuristic(true, 650.0, 800.0, 0.6, 120.0)
    ensures !KeyboardHeuristic(false, 1.0, 800.0, 0.75, 120.0)
  {
  }

  /** `sameSnapshot(a, b)`: every field but `ts` compared with `===`. */
  predicate SameSnapshot(a: Snapshot, b: Snapshot) {
    && a.width == b.width
    && a.height == b.height
    && a.layoutWidth == b.layoutWidth
    && a.layoutHeight == b.layoutHeight
    && StrictEquals(a.offsetLeft, b.offsetLeft)
    && StrictEquals(a.offsetTop, b.offsetTop)
    && a.scale == b.scale
    && a.isKeyboardOpen == b.isKeyboardOpen
    && a.isStable == b.isStable
    && a.hasVisualViewport == b.hasVisualViewport
  }

  /**
   * `sameSnapshot` is equality up to the timestamp, except that a NaN offset makes a
   * snapshot differ from every snapshot, itself included.
   */
  lemma SameSnapshotIsEqualityUpToTs(a: Snapshot, b: Snapshot)
    ensures SameSnapshot(a, b) <==>
              a.(ts := b.ts) == b && !a.offsetLeft.NaN? && !a.offsetTop.NaN?
  {
    StrictEqualsIsEqualityButNaN(a.offsetLeft, b.offsetLeft);
    StrictEqualsIsEqualityButNaN(a.offsetTop, b.offsetTop);
  }

  /** A numeric but non-finite offset reading reaches the snapshot unchanged. */
  lemma NonFiniteOffsetPassesThrough(host: HostReadings, c: Config, now: real)
    requires host.visualViewport.Some?
    requires host.visualViewport.value.offsetTop.Number?
    requires !host.visualViewport.value.offsetTop.n.Finite?
    ensures ComputeSnapshot(host, c, now).offsetTop == host.visualViewport.value.offsetTop.n
  {
  }

  /** The readings of a window without any visual viewport, with finite inner sizes. */
  function LayoutOnly(innerWidth: real, innerHeight: real): HostReadings {
    HostReadings(Number(Finite(innerWidth)), Number(Finite(innerHeight)), None)
  }

  /** Default options, no visual viewport, a 360 x 740 window: the snapshot is that window. */
  lemma NoVisualViewportScenario(now: real)
    ensures var r := ComputeSnapshot(LayoutOnly(360.0, 740.0), WithDefaults(None), now);
            && !r.hasVisualViewport && r.width == 360.0 && r.height == 740.0
  {
    Round2OfHundredths(360.0);
    Round2OfHundredths(740.0);
  }

  /**
   * Hostile readings on a 360 x 740 window: width "oops", height NaN, offsetTop Infinity,
   * offsetLeft -100, scale "1". Width falls back to 360, the NaN height hits the 1 px floor
   * (so the heuristic reports an open keyboard), the scale reads as 1, and the infinite
   * offset is kept.
   */
  lemma InvalidReadingsScenario(now: real)
    ensures var vv := VisualViewport(NotNumber, Number(NaN), NotNumber,
                                     Number(Finite(-100.0)), Number(Infinity(false)));
            var r := ComputeSnapshot(HostReadings(Number(Finite(360.0)), Number(Finite(740.0)), Some(vv)),
                                     WithDefaults(None), now);
            && r.width == 360.0 && r.height == 1.0 && r.scale == 1.0
            && r.isKeyboardOpen && r.offsetLeft == Finite(-100.0) && r.offsetTop == Infinity(false)
  {
    Round2OfHundredths(360.0);
    Round2OfHundredths(740.0);
    Round2OfHundredths(1.0);
    Round2OfHundredths(-100.0);
  }

  /**
   * A 400 x 800 window with a 400 x 700 visual viewport at scale 1 reports height 700 under
   * either trust setting; after the visual height drops to 500 and the window to 600 it reports 500.
   */
  lemma VisualViewportScenario(trust: bool, now: real)
    ensures var c := WithDefaults(Some(NoOptions.(trustVisualViewportUnderZoom := Some(trust))));
            var vv := VisualViewport(Number(Finite(400.0)), Number(Finite(700.0)), Number(Finite(1.0)),
                                     Number(Finite(0.0)), Number(Finite(0.0)));
            var r := ComputeSnapshot(HostReadings(Number(Finite(400.0)), Number(Finite(800.0)), Some(vv)), c, now);
            r.height == 700.0 && r.width == 400.0 && !r.isKeyboardOpen
    ensures var c := WithDefaults(Some(NoOptions.(trustVisualViewportUnderZoom := Some(trust))));
            var vv := VisualViewport(Number(Finite(400.0)), Number(Finite(500.0)), Number(Finite(1.0)),
                                     Number(Finite(0.0)), Number(Finite(0.0)));
            var r := ComputeSnapshot(HostReadings(Number(Finite(400.0)), Number(Finite(600.0)), Some(vv)), c, now);
            r.height == 500.0 && r.layoutHeight == 600.0 && !r.isKeyboardOpen
  {
    Round2OfHundredths(400.0);
    Round2OfHundredths(500.0);
    Round2OfHundredths(600.0);
    Round2OfHundredths(700.0);
    Round2OfHundredths(800.0);
    Round2OfHundredths(1.0);
  }
}

=== FILE: js_number.dfy ===
/**
 * JavaScript number values as the engine sees them, without IEEE-754 detail:
 * a finite number is a real, and the non-finite values are kept apart because
 * `===` treats them differently (NaN equals nothing, an infinity equals itself).
 * Also the two numeric helpers of src/core/engine.ts: `clampMin` and `round2`.
 */
module JsNumber {

  /** A value whose `typeof` is "number". */
  datatype Num = Finite(v: real) | NaN | Infinity(negative: bool)

  /** A raw host reading: a number, or something whose `typeof` is not "number". */
  datatype Reading = Number(n: Num) | NotNumber

  /** `Number.isFinite(x)`: false for NaN, the infinities and every non-number. */
  predicate IsFinite(x: Reading) {
    x.Number? && x.n.Finite?
  }

  /** JavaScript's `a === b` on two numbers. */
  predicate StrictEquals(a: Num, b: Num) {
    match (a, b)
    case (Finite(x), Finite(y)) => x == y
    case (Infinity(p), Infinity(q)) => p == q
    case _ => false
  }

  /** `===` is structural equality except that NaN is unequal to everything, itself included. */
  lemma StrictEqualsIsEqualityButNaN(a: Num, b: Num)
    ensures StrictEquals(a, b) <==> a == b && !a.NaN?
  {
  }

  /** `clampMin(n, min)`: a finite reading raised to at least `min`; any other reading becomes `min`. */
  function ClampMin(x: Reading, min: real): (r: real)
    ensures r >= min
    ensures IsFinite(x) && x.n.v >= min ==> r == x.n.v
    ensures r != min ==> IsFinite(x) && r == x.n.v
    ensures !IsFinite(x) ==> r == min
  {
    if IsFinite(x) then (if x.n.v < min then min else x.n.v) else min
  }

  /** Clamping twice to the same floor is clamping once. */
  lemma ClampMinIdempotent(x: Reading, min: real)
    ensures ClampMin(Number(Finite(ClampMin(x, min))), min) == ClampMin(x, min)
  {
  }

  /** `Math.round(x)` on a finite number: the nearest integer, halves rounded up. */
  function Round(x: real): (r: int)
    ensures r as real - 0.5 <= x < r as real + 0.5
  {
    (x + 0.5).Floor
  }

  /** A real that is a whole number of hundredths. */
  predicate IsHundredths(x: real) {
    (x * 100.0).Floor as real == x * 100.0
  }

  /** `round2(n)` on a finite number: `Math.round(n * 100) / 100`. */
  function Round2(x: real): (r: real)
    ensures r - 0.005 <= x < r + 0.005
    ensures IsHundredths(r)
  {
    var k := Round(x * 100.0);
    assert (k as real / 100.0) * 100.0 == k as real;
    k as real / 100.0
  }

  /** Rounding preserves order (not strictly). */
  lemma Round2Monotone(x: real, y: real)
    requires x <= y
    ensures Round2(x) <= Round2(y)
  {
    var a, b := x * 100.0 + 0.5, y * 100.0 + 0.5;
    assert a <= b;
    assert a.Floor <= b.Floor by {
      assert a.Floor as real <= a <= b < b.Floor as real + 1.0;
    }
  }

  /** A whole number of hundredths is left alone by rounding. */
  lemma Round2OfHundredths(x: real)
    requires IsHundredths(x)
    ensures Round2(x) == x
  {
    var k := (x * 100.0).Floor;
    assert (k as real + 0.5).Floor == k;
    assert x * 100.0 + 0.5 == k as real + 0.5;
    assert x == k as real / 100.0;
  }

  /** Rounding is idempotent. */
  lemma Round2Idempotent(x: real)
    ensures Round2(Round2(x)) == Round2(x)
  {
    Round2OfHundredths(Round2(x));
  }

  /** A value at or above a floor that is a whole number of hundredths rounds to at least that floor. */
  lemma Round2KeepsHundredthsFloor(x: real, floor: real)
    requires IsHundredths(floor) && x >= floor
    ensures Round2(x) >= floor
  {
    Round2Monotone(floor, x);
    Round2OfHundredths(floor);
  }

  /** `round2` on any number value: NaN and the infinities pass through unchanged. */
  function RoundNum2(n: Num): (r: Num)
    ensures r.Finite? <==> n.Finite?
    ensures n.Finite? ==> IsHundredths(r.v) && r.v - 0.005 <= n.v < r.v + 0.005
    ensures !n.Finite? ==> r == n
  {
    match n
    case Finite(x) => Finite(Round2(x))
    case _ => n
  }
}

=== FILE: scheduler.dfy ===
/**
 * The event coalescer of src/core/scheduler.ts (`createScheduler`), as a state
 * machine over its own flags and ids together with the host queues it uses:
 * the microtask queue, the pending animation-frame requests and the pending
 * idle requests. Callbacks are opaque values of type `F`; running one is the
 * caller's business, so firing a request hands its callback back.
 *
 * The microtask that `scheduleFrame` queues cannot be cancelled; it checks
 * `frameQueued` when it runs. As written, that check is fooled when `cancelAll`
 * and a fresh `scheduleFrame` both happen before the microtask runs
 * (`CancelThenRescheduleLeaksFrame`). The corrected microtask also checks that
 * no `cancelAll` happened since it was queued, which a generation counter
 * records (`RunMicrotask`); the as-written operation never reads it
 * (`RunMicrotaskAsWritten`).
 */
module Scheduler {
  import opened Wrappers

  /** A microtask queued by `scheduleFrame`: the callback it will request a frame for, and the generation it was queued in. */
  datatype Microtask<F> = Microtask(fn: F, generation: nat)

  /** The host queues: microtasks in order, and pending frame and idle requests by id. */
  datatype Host<F> = Host(
    microtasks: seq<Microtask<F>>,
    frames: map<nat, F>,
    idles: map<nat, F>,
    nextId: nat)

  /** The scheduler's own variables (`rafId`, `idleId`, `frameQueued`, `idleQueued`), its generation, and the host. */
  datatype State<F> = State(
    rafId: Option<nat>,
    idleId: Option<nat>,
    frameQueued: bool,
    idleQueued: bool,
    generation: nat,
    host: Host<F>)

  /** What firing a request yields: the new state and the callback to run, if the request was pending. */
  datatype Fired<F> = Fired(state: State<F>, callback: Option<F>)

  /** A fresh scheduler on an idle host. */
  function Init<F>(): (s: State<F>)
    ensures !s.frameQueued && !s.idleQueued && s.rafId.None? && s.idleId.None?
    ensures s.host.microtasks == [] && s.host.frames == map[] && s.host.idles == map[]
  {
    State(None, None, false, false, 0, Host([], map[], map[], 0))
  }

  /** The number of microtasks in `ms` queued in generation `g`. */
  function LiveCount<F>(ms: seq<Microtask<F>>, g: nat): (n: nat)
    ensures n <= |ms|
  {
    if |ms| == 0 then 0
    else (if ms[0].generation == g then 1 else 0) + LiveCount(ms[1..], g)
  }

  lemma {:induction false} LiveCountAppend<F>(ms: seq<Microtask<F>>, m: Microtask<F>, g: nat)
    ensures LiveCount(ms + [m], g) == LiveCount(ms, g) + (if m.generation == g then 1 else 0)
  {
    if |ms| == 0 {
      assert ms + [m] == [m];
      assert [m][1..] == [];
    } else {
      assert (ms + [m])[0] == ms[0];
      assert (ms + [m])[1..] == ms[1..] + [m];
      LiveCountAppend(ms[1..], m, g);
    }
  }

  lemma {:induction false} LiveCountNoneNewer<F>(ms: seq<Microtask<F>>, g: nat)
    requires forall i :: 0 <= i < |ms| ==> ms[i].generation < g
    ensures LiveCount(ms, g) == 0
  {
    if |ms| > 0 {
      LiveCountNoneNewer(ms[1..], g);
    }
  }

  /** The frame callbacks still on their way: live microtasks plus pending frame requests. */
  function PendingFrames<F>(s: State<F>): nat {
    LiveCount(s.host.microtasks, s.generation) + |s.host.frames.Keys|
  }

  /** The invariant the corrected scheduler keeps. */
  ghost predicate Inv<F>(s: State<F>) {
    && (forall i :: 0 <= i < |s.host.microtasks| ==> s.host.microtasks[i].generation <= s.generation)
    && (forall id :: id in s.host.frames ==> id < s.host.nextId)
    && (forall id :: id in s.host.idles ==> id < s.host.nextId)
    && s.host.frames.Keys == OptionSet(s.rafId)
    && s.host.idles.Keys == OptionSet(s.idleId)
    && (s.idleQueued <==> s.idleId.Some?)
    && LiveCount(s.host.microtasks, s.generation) <= 1
    && !(LiveCount(s.host.microtasks, s.generation) == 1 && s.rafId.Some?)
    && (s.frameQueued <==> LiveCount(s.host.microtasks, s.generation) == 1 || s.rafId.Some?)
  }

  lemma InitInv<F>()
    ensures Inv(Init<F>())
  {
  }

  /** At most one frame callback and at most one idle callback are outstanding, each exactly while its flag is set. */
  lemma AtMostOneOutstanding<F>(s: State<F>)
    requires Inv(s)
    ensures PendingFrames(s) <= 1
    ensures PendingFrames(s) == 1 <==> s.frameQueued
    ensures |s.host.idles.Keys| <= 1
    ensures |s.host.idles.Keys| == 1 <==> s.idleQueued
  {
  }

  /** `scheduleFrame(fn)`: ignored while a frame is queued; otherwise sets the flag and queues a microtask. The idle queue is untouched. */
  function ScheduleFrame<F>(s: State<F>, fn: F): (r: State<F>)
    ensures s.frameQueued ==> r == s
    ensures !s.frameQueued ==>
              && r.frameQueued
              && r.host.microtasks == s.host.microtasks + [Microtask(fn, s.generation)]
              && r.host.frames == s.host.frames && r.rafId == s.rafId
    ensures r.idleQueued == s.idleQueued && r.idleId == s.idleId && r.host.idles == s.host.idles
    ensures r.generation == s.generation && r.host.nextId == s.host.nextId
  {
    if s.frameQueued then s
    else s.(frameQueued := true,
            host := s.host.(microtasks := s.host.microtasks + [Microtask(fn, s.generation)]))
  }

  /** `scheduleIdle(fn)`: ignored while an idle callback is queued; otherwise requests one. The frame queue is untouched. */
  function ScheduleIdle<F>(s: State<F>, fn: F): (r: State<F>)
    ensures s.idleQueued ==> r == s
    ensures !s.idleQueued ==>
              && r.idleQueued && r.idleId == Some(s.host.nextId)
              && r.host.idles == s.host.idles[s.host.nextId := fn]
              && r.host.nextId == s.host.nextId + 1
    ensures r.frameQueued == s.frameQueued && r.rafId == s.rafId && r.generation == s.generation
    ensures r.host.frames == s.host.frames && r.host.microtasks == s.host.microtasks
  {
    if s.idleQueued then s
    else
      var id := s.host.nextId;
      s.(idleQueued := true, idleId := Some(id),
         host := s.host.(idles := s.host.idles[id := fn], nextId := id + 1))
  }

  /**
   * `cancelAll()`: cancels the referenced frame and idle requests and clears both flags and ids.
   * The generation moves on when a frame was queued, so that a microtask already queued goes stale.
   */
  function CancelAll<F>(s: State<F>): (r: State<F>)
    ensures !r.frameQueued && !r.idleQueued && r.rafId.None? && r.idleId.None?
    ensures r.host.frames == s.host.frames - OptionSet(s.rafId)
    ensures r.host.idles == s.host.idles - OptionSet(s.idleId)
    ensures r.host.microtasks == s.host.microtasks && r.host.nextId == s.host.nextId
    ensures r.generation >= s.generation
  {
    State(None, None, false, false,
          if s.frameQueued then s.generation + 1 else s.generation,
          s.host.(frames := s.host.frames - OptionSet(s.rafId),
                  idles := s.host.idles - OptionSet(s.idleId)))
  }

  /** Requests a frame for `fn`, as the microtask queued by `scheduleFrame` does once it decides to. */
  function RequestFrame<F>(s: State<F>, rest: seq<Microtask<F>>, fn: F): State<F> {
    var id := s.host.nextId;
    s.(rafId := Some(id), host := s.host.(microtasks := rest, frames := s.host.frames[id := fn], nextId := id + 1))
  }

  /** The host runs the oldest microtask, as `scheduleFrame` writes it: it requests a frame whenever `frameQueued` is set. */
  function RunMicrotaskAsWritten<F>(s: State<F>): (r: State<F>)
    ensures |s.host.microtasks| > 0 && s.frameQueued ==>
              r.host.frames == s.host.frames[s.host.nextId := s.host.microtasks[0].fn]
    ensures |s.host.microtasks| > 0 ==> r.host.microtasks == s.host.microtasks[1..]
    ensures |s.host.microtasks| == 0 ==> r == s
    ensures |s.host.microtasks| > 0 && !s.frameQueued ==> r.host.frames == s.host.frames && r.rafId == s.rafId
    ensures |s.host.microtasks| > 0 && s.frameQueued ==>
              r.rafId == Some(s.host.nextId) && r.host.nextId == s.host.nextId + 1
    ensures r.frameQueued == s.frameQueued && r.idleQueued == s.idleQueued && r.idleId == s.idleId
    ensures r.generation == s.generation && r.host.idles == s.host.idles
  {
    if |s.host.microtasks| == 0 then s
    else
      var m, rest := s.host.microtasks[0], s.host.microtasks[1..];
      if !s.frameQueued then s.(host := s.host.(microtasks := rest))
      else RequestFrame(s, rest, m.fn)
  }

  /** The host runs the oldest microtask, corrected: a microtask from before the last `cancelAll` requests nothing. */
  function RunMicrotask<F>(s: State<F>): (r: State<F>)
    ensures |s.host.microtasks| > 0 ==> r.host.microtasks == s.host.microtasks[1..]
    ensures |s.host.microtasks| > 0 && s.host.microtasks[0].generation < s.generation ==>
              r.host.frames == s.host.frames && r.rafId == s.rafId
    ensures r.generation == s.generation && r.frameQueued == s.frameQueued
  {
    if |s.host.microtasks| == 0 then s
    else
      var m, rest := s.host.microtasks[0], s.host.microtasks[1..];
      if !s.frameQueued || m.generation != s.generation then s.(host := s.host.(microtasks := rest))
      else RequestFrame(s, rest, m.fn)
  }

  /** The host fires frame request `id`: the ids and flag are cleared before the callback is handed back to run. */
  function FireFrame<F>(s: State<F>, id: nat): (r: Fired<F>)
    ensures id !in s.host.frames ==> r == Fired(s, None)
    ensures id in s.host.frames ==>
              && r.callback == Some(s.host.frames[id])
              && !r.state.frameQueued && r.state.rafId.None?
              && r.state.host.frames == s.host.frames - {id}
    ensures r.state.idleQueued == s.idleQueued && r.state.host.idles == s.host.idles
    ensures r.state.host.microtasks == s.host.microtasks && r.state.host.nextId == s.host.nextId
    ensures r.state.generation == s.generation && r.state.idleId == s.idleId
  {
    if id !in s.host.frames then Fired(s, None)
    else Fired(s.(rafId := None, frameQueued := false, host := s.host.(frames := s.host.frames - {id})),
               Some(s.host.frames[id]))
  }

  /** The host fires idle request `id`: the id and flag are cleared before the callback is handed back to run. */
  function FireIdle<F>(s: State<F>, id: nat): (r: Fired<F>)
    ensures id !in s.host.idles ==> r == Fired(s, None)
    ensures id in s.host.idles ==>
              && r.callback == Some(s.host.idles[id])
              && !r.state.idleQueued && r.state.idleId.None?
              && r.state.host.idles == s.host.idles - {id}
    ensures r.state.frameQueued == s.frameQueued && r.state.host.frames == s.host.frames
    ensures r.state.host.microtasks == s.host.microtasks && r.state.host.nextId == s.host.nextId
    ensures r.state.generation == s.generation && r.state.rafId == s.rafId
  {
    if id !in s.host.idles then Fired(s, None)
    else Fired(s.(idleId := None, idleQueued := false, host := s.host.(idles := s.host.idles - {id})),
               Some(s.host.idles[id]))
  }

  lemma ScheduleFramePreservesInv<F>(s: State<F>, fn: F)
    requires Inv(s)
    ensures Inv(ScheduleFrame(s, fn))
  {
    if !s.frameQueued {
      LiveCountAppend(s.host.microtasks, Microtask(fn, s.generation), s.generation);
    }
  }

  lemma ScheduleIdlePreservesInv<F>(s: State<F>, fn: F)
    requires Inv(s)
    ensures Inv(ScheduleIdle(s, fn))
  {
  }

  lemma CancelAllPreservesInv<F>(s: State<F>)
    requires Inv(s)
    ensures Inv(CancelAll(s))
  {
    var r := CancelAll(s);
    if s.frameQueued {
      LiveCountNoneNewer(r.host.microtasks, r.generation);
    }
  }

  lemma RunMicrotaskPreservesInv<F>(s: State<F>)
    requires Inv(s)
    ensures Inv(RunMicrotask(s))
  {
  }

  lemma FireFramePreservesInv<F>(s: State<F>, id: nat)
    requires Inv(s)
    ensures Inv(FireFrame(s, id).state)
  {
  }

  lemma FireIdlePreservesInv<F>(s: State<F>, id: nat)
    requires Inv(s)
    ensures Inv(FireIdle(s, id).state)
  {
  }

  /** `cancelAll` twice is `cancelAll` once. */
  lemma CancelAllIdempotent<F>(s: State<F>)
    ensures CancelAll(CancelAll(s)) == CancelAll(s)
  {
    assert CancelAll(s).host.frames - {} == CancelAll(s).host.frames;
    assert CancelAll(s).host.idles - {} == CancelAll(s).host.idles;
  }

  /** A burst of `scheduleFrame` calls, in order. */
  function ScheduleFrames<F>(s: State<F>, fns: seq<F>): State<F>
    decreases |fns|
  {
    if |fns| == 0 then s else ScheduleFrames(ScheduleFrame(s, fns[0]), fns[1..])
  }

  /** While a frame is queued, any number of further `scheduleFrame` calls change nothing. */
  lemma {:induction false} PendingFrameAbsorbsRequests<F>(s: State<F>, fns: seq<F>)
    requires s.frameQueued
    ensures ScheduleFrames(s, fns) == s
    decreases |fns|
  {
    if |fns| > 0 {
      PendingFrameAbsorbsRequests(ScheduleFrame(s, fns[0]), fns[1..]);
    }
  }

  /** A burst of requests has the effect of its first request alone. */
  lemma BurstKeepsFirst<F>(s: State<F>, fns: seq<F>)
    requires |fns| > 0
    ensures ScheduleFrames(s, fns) == ScheduleFrame(s, fns[0])
  {
    var s1 := ScheduleFrame(s, fns[0]);
    PendingFrameAbsorbsRequests(s1, fns[1..]);
  }

  /**
   * From an idle scheduler, a burst of N requests followed by the microtask and the frame
   * runs the first callback, once: afterwards nothing is outstanding.
   */
  lemma BurstRunsFirstExactlyOnce<F>(s: State<F>, fns: seq<F>)
    requires Inv(s) && !s.frameQueued && s.host.microtasks == [] && |fns| > 0
    ensures var s1 := RunMicrotask(ScheduleFrames(s, fns));
            && s1.rafId.Some?
            && s1.host.frames == map[s1.rafId.value := fns[0]]
            && var fired := FireFrame(s1, s1.rafId.value);
               && fired.callback == Some(fns[0])
               && !fired.state.frameQueued
               && PendingFrames(fired.state) == 0
  {
    BurstKeepsFirst(s, fns);
    var s0 := ScheduleFrames(s, fns);
    assert s0.host.microtasks == [Microtask(fns[0], s.generation)];
    var s1 := RunMicrotask(s0);
    assert s.host.frames.Keys == {};
    assert s1.host.frames == map[s.host.nextId := fns[0]];
    assert s1.host.microtasks == [];
    var fired := FireFrame(s1, s1.rafId.value);
    assert fired.state.host.frames == map[];
  }

  /**
   * The flag is cleared before the callback runs, so a `scheduleFrame` issued from inside the
   * callback opens a new window: it is queued, not swallowed.
   */
  lemma ScheduleFromCallbackIsQueued<F>(s: State<F>, id: nat, fn: F)
    requires Inv(s) && id in s.host.frames
    ensures var fired := FireFrame(s, id);
            var r := ScheduleFrame(fired.state, fn);
            && r.frameQueued
            && LiveCount(r.host.microtasks, r.generation) == 1
            && r.host.microtasks[|r.host.microtasks| - 1] == Microtask(fn, r.generation)
  {
    var fired := FireFrame(s, id);
    FireFramePreservesInv(s, id);
    LiveCountAppend(fired.state.host.microtasks, Microtask(fn, s.generation), s.generation);
  }

  /**
   * `cancelAll` between `scheduleFrame` and its microtask: nothing is outstanding afterwards, and
   * when that microtask runs it requests no frame, so the callback never runs.
   */
  lemma CancelBeforeMicrotaskDropsRequest<F>(s: State<F>, fn: F)
    requires Inv(s) && !s.frameQueued && s.host.microtasks == []
    ensures var s1 := CancelAll(ScheduleFrame(s, fn));
            && PendingFrames(s1) == 0
            && s1.host.microtasks == [Microtask(fn, s.generation)]
            && s1.generation > s.generation
            && RunMicrotask(s1).host.frames == s1.host.frames
            && RunMicrotask(s1).rafId.None?
            && RunMicrotaskAsWritten(s1) == RunMicrotask(s1)
  {
    var s1 := CancelAll(ScheduleFrame(s, fn));
    LiveCountNoneNewer(s1.host.microtasks, s1.generation);
  }

  /** The two queues are independent: a pending frame never suppresses an idle request, nor the reverse. */
  lemma QueuesAreIndependent<F>(s: State<F>, f: F, g: F)
    ensures !s.idleQueued ==> ScheduleIdle(s, f).host.idles == s.host.idles[s.host.nextId := f]
    ensures !s.frameQueued ==> ScheduleFrame(s, g).host.microtasks == s.host.microtasks + [Microtask(g, s.generation)]
    ensures ScheduleFrame(ScheduleIdle(s, f), g).host.idles == ScheduleIdle(s, f).host.idles
    ensures ScheduleIdle(ScheduleFrame(s, g), f).host.microtasks == ScheduleFrame(s, g).host.microtasks
  {
  }

  /** The corrected microtask behaves as written whenever the head microtask is not stale. */
  lemma RunMicrotaskAgreesWhenCurrent<F>(s: State<F>)
    requires |s.host.microtasks| == 0 || !s.frameQueued || s.host.microtasks[0].generation == s.generation
    ensures RunMicrotask(s) == RunMicrotaskAsWritten(s)
  {
  }

  /**
   * As written: `scheduleFrame(1)`, `cancelAll()`, `scheduleFrame(2)`, then both microtasks run.
   * Both request a frame, so two frame callbacks are outstanding and the cancelled callback 1 will
   * run. Once frame 0 fires it clears `rafId`, and `cancelAll` can no longer reach frame 1.
   */
  lemma CancelThenRescheduleLeaksFrame()
    ensures var s3 := ScheduleFrame(CancelAll(ScheduleFrame(Init<int>(), 1)), 2);
            var s5 := RunMicrotaskAsWritten(RunMicrotaskAsWritten(s3));
            && s5.host.frames == map[0 := 1, 1 := 2]
            && PendingFrames(s5) == 2
            && !Inv(s5)
            && var fired := FireFrame(s5, 0);
               && fired.callback == Some(1)
               && CancelAll(fired.state).host.frames == map[1 := 2]
  {
    var s3 := ScheduleFrame(CancelAll(ScheduleFrame(Init<int>(), 1)), 2);
    assert s3.host.microtasks == [Microtask(1, 0), Microtask(2, 1)];
    var s4 := RunMicrotaskAsWritten(s3);
    assert s4.host.frames == map[0 := 1];
    var s5 := RunMicrotaskAsWritten(s4);
    assert s5.host.frames == map[0 := 1, 1 := 2];
    assert s5.host.frames.Keys == {0, 1};
    assert OptionSet(s5.rafId) == {1};
    var fired := FireFrame(s5, 0);
    assert fired.state.host.frames == map[1 := 2];
  }

  /** The same calls with the corrected microtask: only callback 2 gets a frame. */
  lemma CancelThenRescheduleCorrected()
    ensures var s3 := ScheduleFrame(CancelAll(ScheduleFrame(Init<int>(), 1)), 2);
            var s5 := RunMicrotask(RunMicrotask(s3));
            && s5.host.frames == map[0 := 2]
            && s5.rafId == Some(0)
            && Inv(s5)
  {
    var s3 := ScheduleFrame(CancelAll(ScheduleFrame(Init<int>(), 1)), 2);
    assert s3.host.microtasks == [Microtask(1, 0), Microtask(2, 1)];
    var s4 := RunMicrotask(s3);
    assert s4.host.frames == map[];
    assert s4.host.microtasks == [Microtask(2, 1)];
    var s5 := RunMicrotask(s4);
    assert s5.host.frames == map[0 := 2];
    assert s5.host.microtasks == [];
  }

  /** One call into the scheduler or one delivery by the host. */
  datatype Op<F> = DoScheduleFrame(fn: F) | DoScheduleIdle(fn: F) | DoCancelAll
                 | DoRunMicrotask | DoFireFrame(id: nat) | DoFireIdle(id: nat)

  function Apply<F>(s: State<F>, op: Op<F>): State<F> {
    match op
    case DoScheduleFrame(fn) => ScheduleFrame(s, fn)
    case DoScheduleIdle(fn) => ScheduleIdle(s, fn)
    case DoCancelAll => CancelAll(s)
    case DoRunMicrotask => RunMicrotask(s)
    case DoFireFrame(id) => FireFrame(s, id).state
    case DoFireIdle(id) => FireIdle(s, id).state
  }

  lemma ApplyPreservesInv<F>(s: State<F>, op: Op<F>)
    requires Inv(s)
    ensures Inv(Apply(s, op))
  {
    match op {
      case DoScheduleFrame(fn) => ScheduleFramePreservesInv(s, fn);
      case DoScheduleIdle(fn) => ScheduleIdlePreservesInv(s, fn);
      case DoCancelAll => CancelAllPreservesInv(s);
      case DoRunMicrotask => RunMicrotaskPreservesInv(s);
      case DoFireFrame(id) => FireFramePreservesInv(s, id);
      case DoFireIdle(id) => FireIdlePreservesInv(s, id);
    }
  }

  function ApplyAll<F>(s: State<F>, ops: seq<Op<F>>): State<F>
    decreases |ops|
  {
    if |ops| == 0 then s else ApplyAll(Apply(s, ops[0]), ops[1..])
  }

  /** Along every trace of the corrected scheduler, at most one frame and one idle callback are outstanding. */
  lemma {:induction false} AtMostOneOutstandingAlways<F>(s: State<F>, ops: seq<Op<F>>)
    requires Inv(s)
    ensures Inv(ApplyAll(s, ops))
    ensures PendingFrames(ApplyAll(s, ops)) <= 1 && |ApplyAll(s, ops).host.idles.Keys| <= 1
    decreases |ops|
  {
    if |ops| > 0 {
      ApplyPreservesInv(s, ops[0]);
      AtMostOneOutstandingAlways(Apply(s, ops[0]), ops[1..]);
    } else {
      AtMostOneOutstanding(s);
    }
  }
}

=== FILE: store.dfy ===
/**
 * The store of src/core/engine.ts (`createViewportTruthStore`) as a state machine.
 * The variables it closes over (`snapshot`, `listeners`, `attached`, `destroyed`,
 * `stableTimer`, `lastChangeAt`, the scheduler) are fields of `StoreState`; every
 * call a caller makes and every callback the host delivers is an `Event`, and
 * `Step` returns the new state together with the listeners it called, in order.
 *
 * The host's readings and clock arrive with each delivered callback (`Env`).
 * Pending `setTimeout` timers are kept as a map from id to the earliest time the
 * host may fire them. Listeners are opaque identities and are assumed not to call
 * back into the store.
 */
module ViewportStore {
  import opened Wrappers
  import opened JsNumber
  import opened Config
  import opened Geometry
  import Scheduler

  /** A subscriber's identity (the listener function passed to `subscribe`). */
  type ListenerId = nat

  /** The callbacks the store hands to its scheduler. */
  datatype Job =
    | RecomputeJob                       // `recompute`, queued on a frame
    | NotifyJob(listener: ListenerId)    // the per-subscriber first call, queued on a frame
    | StartTimerJob                      // the idle callback of `armStabilityTimer`, which starts the timer

  /** What the host offers when it runs a callback: its viewport readings and `now()`. */
  datatype Env = Env(host: HostReadings, now: real)

  /** The variables a full-mode store closes over. */
  datatype StoreState = StoreState(
    config: Config,
    destroyed: bool,
    snapshot: Snapshot,
    listeners: seq<ListenerId>,
    attached: bool,
    lastChangeAt: real,
    stableTimer: Option<nat>,
    timers: map<nat, real>,
    nextTimerId: nat,
    scheduler: Scheduler.State<Job>)

  /** A store: degraded off-host, or a full store over a host. */
  datatype Store = OffHost | OnHost(state: StoreState)

  /** The error `getSnapshot` throws off-host. */
  datatype UsageError = CalledOffHost

  /** A new state and the listeners called while reaching it, in call order. */
  datatype Outcome = Outcome(state: StoreState, notified: seq<ListenerId>)

  /** No listener appears twice (the listener collection is a `Set`). */
  predicate Distinct(ls: seq<ListenerId>) {
    forall i, j :: 0 <= i < j < |ls| ==> ls[i] != ls[j]
  }

  /** `listeners.add(l)`: appended unless present; insertion order is call order. */
  function AddListener(ls: seq<ListenerId>, l: ListenerId): (r: seq<ListenerId>)
    ensures forall x :: x in r <==> x in ls || x == l
    ensures Distinct(ls) ==> Distinct(r)
    ensures |r| == if l in ls then |ls| else |ls| + 1
    ensures l in ls ==> r == ls
    ensures l !in ls ==> r == ls + [l] && r[|r| - 1] == l
  {
    if l in ls then ls else ls + [l]
  }

  /** `listeners.delete(l)`: the others keep their order. */
  function RemoveListener(ls: seq<ListenerId>, l: ListenerId): (r: seq<ListenerId>)
    ensures forall x :: x in r <==> x in ls && x != l
    ensures Distinct(ls) ==> Distinct(r)
    ensures l !in ls ==> r == ls
    ensures |r| <= |ls|
    ensures Distinct(ls) && l in ls ==> exists k :: 0 <= k < |ls| && ls[k] == l && r == ls[..k] + ls[k+1..]
  {
    if |ls| == 0 then []
    else
      var rest := RemoveListener(ls[1..], l);
      RemoveListenerStep(ls, l, rest);
      if ls[0] == l then rest else [ls[0]] + rest
  }

  /** The step of `RemoveListener`: what removal from the tail gives, removal from the whole sequence gives. */
  lemma RemoveListenerStep(ls: seq<ListenerId>, l: ListenerId, rest: seq<ListenerId>)
    requires |ls| > 0
    requires forall x :: x in rest <==> x in ls[1..] && x != l
    requires Distinct(ls[1..]) ==> Distinct(rest)
    requires l !in ls[1..] ==> rest == ls[1..]
    requires |rest| <= |ls[1..]|
    requires Distinct(ls[1..]) && l in ls[1..] ==>
               exists k :: 0 <= k < |ls[1..]| && ls[1..][k] == l && rest == ls[1..][..k] + ls[1..][k+1..]
    ensures var r := if ls[0] == l then rest else [ls[0]] + rest;
            && (forall x :: x in r <==> x in ls && x != l)
            && (Distinct(ls) ==> Distinct(r))
            && (l !in ls ==> r == ls)
            && |r| <= |ls|
            && (Distinct(ls) && l in ls ==> exists k :: 0 <= k < |ls| && ls[k] == l && r == ls[..k] + ls[k+1..])
  {
    assert ls == [ls[0]] + ls[1..];
    if Distinct(ls) {
      DistinctTail(ls);
      if ls[0] == l {
        assert ls[..0] + ls[0+1..] == ls[1..];
      } else {
        DistinctCons(ls[0], rest);
        if l in ls {
          DropBehindHead(ls, l, rest);
        }
      }
    }
  }

  /** A duplicate-free sequence has a head its tail lacks, and a duplicate-free tail. */
  lemma DistinctTail(ls: seq<ListenerId>)
    requires |ls| > 0 && Distinct(ls)
    ensures ls[0] !in ls[1..] && Distinct(ls[1..])
  {
    forall i, j | 0 <= i < j < |ls[1..]|
      ensures ls[1..][i] != ls[1..][j]
    {
      assert ls[1..][i] == ls[i + 1] && ls[1..][j] == ls[j + 1];
    }
  }

  /** Putting a new element in front of a duplicate-free sequence keeps it duplicate-free. */
  lemma DistinctCons(h: ListenerId, ls: seq<ListenerId>)
    requires h !in ls && Distinct(ls)
    ensures Distinct([h] + ls)
  {
    forall i, j | 0 <= i < j < |[h] + ls|
      ensures ([h] + ls)[i] != ([h] + ls)[j]
    {
      if i > 0 {
        assert ([h] + ls)[i] == ls[i - 1];
      }
      assert ([h] + ls)[j] == ls[j - 1];
    }
  }

  /** Dropping one occurrence of `l` from the tail of `ls` is dropping it from `ls` behind the head. */
  lemma DropBehindHead(ls: seq<ListenerId>, l: ListenerId, rest: seq<ListenerId>)
    requires |ls| > 0
    requires exists k :: 0 <= k < |ls[1..]| && ls[1..][k] == l && rest == ls[1..][..k] + ls[1..][k+1..]
    ensures exists k :: 0 <= k < |ls| && ls[k] == l && [ls[0]] + rest == ls[..k] + ls[k+1..]
  {
    var k :| 0 <= k < |ls[1..]| && ls[1..][k] == l && rest == ls[1..][..k] + ls[1..][k+1..];
    assert ls[..k+1] == [ls[0]] + ls[1..][..k];
    assert ls[k+2..] == ls[1..][k+1..];
    assert ls[k+1] == l && [ls[0]] + rest == ls[..k+1] + ls[k+2..];
  }

  /**
   * `createViewportTruthStore(options)`: off-host a degraded store; otherwise a store whose
   * first snapshot is computed at once and marked stable, with nothing attached yet.
   */
  function Create(options: Option<Options>, canUseDom: bool, env: Env): (r: Store)
    ensures r.OnHost? <==> canUseDom
    ensures r.OnHost? ==>
              && r.state.config == WithDefaults(options)
              && r.state.snapshot == ComputeSnapshot(env.host, r.state.config, env.now)
              && r.state.snapshot.isStable
              && r.state.snapshot.ts == env.now && r.state.lastChangeAt == env.now
              && r.state.listeners == [] && !r.state.attached && !r.state.destroyed
              && Inv(r.state)
  {
    var c := WithDefaults(options);
    if !canUseDom then OffHost
    else
      var snapshot := ComputeSnapshot(env.host, c, env.now).(isStable := true);
      OnHost(StoreState(c, false, snapshot, [], false, snapshot.ts, None, map[], 0, Scheduler.Init()))
  }

  /** `getSnapshot()`: the current snapshot, or a usage error off-host. */
  function GetSnapshot(store: Store): (r: Result<Snapshot, UsageError>)
    ensures r.Err? <==> store.OffHost?
    ensures store.OnHost? ==> r == Ok(store.state.snapshot)
  {
    match store
    case OffHost => Err(CalledOffHost)
    case OnHost(s) => Ok(s.snapshot)
  }

  /** `getServerSnapshot()`: always `null`, in both modes. */
  function GetServerSnapshot(store: Store): (r: Option<Snapshot>)
    ensures r.None?
  {
    None
  }

  /** `setStable(value)`: nothing when destroyed or unchanged; otherwise a new snapshot and every listener called. */
  function SetStable(s: StoreState, value: bool, now: real): (o: Outcome)
    ensures s.destroyed || s.snapshot.isStable == value ==> o == Outcome(s, [])
    ensures !s.destroyed && s.snapshot.isStable != value ==>
              && o.state == s.(snapshot := s.snapshot.(isStable := value, ts := now))
              && o.notified == s.listeners
  {
    if s.destroyed || s.snapshot.isStable == value then Outcome(s, [])
    else Outcome(s.(snapshot := s.snapshot.(isStable := value, ts := now)), s.listeners)
  }

  /** `armStabilityTimer()`: clears the referenced timer and asks the scheduler for an idle callback that starts a new one. */
  function ArmStabilityTimer(s: StoreState): (r: StoreState)
    ensures r.timers == s.timers - OptionSet(s.stableTimer)
    ensures r.scheduler.idleQueued
    ensures r.scheduler == Scheduler.ScheduleIdle(s.scheduler, StartTimerJob)
    ensures r == s.(timers := r.timers, scheduler := r.scheduler)
  {
    s.(timers := s.timers - OptionSet(s.stableTimer),
       scheduler := Scheduler.ScheduleIdle(s.scheduler, StartTimerJob))
  }

  /** The idle callback of `armStabilityTimer`: unless destroyed, starts a timer due `stableDelayMs` from now. */
  function StartTimer(s: StoreState, now: real): (r: StoreState)
    ensures s.destroyed ==> r == s
    ensures !s.destroyed ==>
              && r.stableTimer == Some(s.nextTimerId)
              && r.timers == s.timers[s.nextTimerId := now + s.config.stableDelayMs]
              && r == s.(stableTimer := r.stableTimer, timers := r.timers, nextTimerId := s.nextTimerId + 1)
  {
    if s.destroyed then s
    else
      var id := s.nextTimerId;
      s.(stableTimer := Some(id), timers := s.timers[id := now + s.config.stableDelayMs], nextTimerId := id + 1)
  }

  /**
   * The host fires timer `id`: unless destroyed, the snapshot becomes stable when at least
   * `stableDelayMs` has passed since the last change; a younger change makes it do nothing.
   */
  function TimerCallback(s: StoreState, id: nat, now: real): (o: Outcome)
    ensures id !in s.timers ==> o == Outcome(s, [])
    ensures o.state.snapshot.isStable != s.snapshot.isStable ==>
              && id in s.timers && !s.destroyed && o.state.snapshot.isStable
              && now - s.lastChangeAt >= s.config.stableDelayMs
    ensures id in s.timers && !s.destroyed && now - s.lastChangeAt >= s.config.stableDelayMs ==>
              o.state.snapshot.isStable
    ensures id in s.timers ==> o.state == s.(timers := s.timers - {id}, snapshot := o.state.snapshot)
    ensures o.state.snapshot == s.snapshot || o.state.snapshot == s.snapshot.(isStable := true, ts := now)
    ensures o.notified == if o.state.snapshot != s.snapshot then s.listeners else []
    ensures s.snapshot.isStable ==> o.state.snapshot == s.snapshot && o.notified == []
  {
    if id !in s.timers then Outcome(s, [])
    else
      var s1 := s.(timers := s.timers - {id});
      if s1.destroyed then Outcome(s1, [])
      else if now - s1.lastChangeAt >= s1.config.stableDelayMs then SetStable(s1, true, now)
      else Outcome(s1, [])
  }

  /**
   * `recompute()`: unless destroyed, measures a snapshot marked unstable; if it differs from the
   * current one by `sameSnapshot`, it replaces it, records the change time and calls every
   * listener. In both cases the stability timer is re-armed.
   */
  function Recompute(s: StoreState, env: Env): (o: Outcome)
    ensures s.destroyed ==> o == Outcome(s, [])
    ensures !s.destroyed ==>
              var next := ComputeSnapshot(env.host, s.config, env.now).(isStable := false);
              && (SameSnapshot(s.snapshot, next) ==>
                    && o.notified == [] && o.state.snapshot == s.snapshot
                    && o.state.lastChangeAt == s.lastChangeAt)
              && (!SameSnapshot(s.snapshot, next) ==>
                    && o.notified == s.listeners && o.state.snapshot == next
                    && o.state.lastChangeAt == env.now)
              && o.state.scheduler.idleQueued
              && o.state.timers == s.timers - OptionSet(s.stableTimer)
              && o.state.listeners == s.listeners && o.state.attached == s.attached
              && !o.state.destroyed
    ensures !s.destroyed ==>
              o.state.(snapshot := s.snapshot, lastChangeAt := s.lastChangeAt) == ArmStabilityTimer(s)
  {
    if s.destroyed then Outcome(s, [])
    else
      var next := ComputeSnapshot(env.host, s.config, env.now).(isStable := false);
      if !SameSnapshot(s.snapshot, next) then
        Outcome(ArmStabilityTimer(s.(snapshot := next, lastChangeAt := next.ts)), s.listeners)
      else
        Outcome(ArmStabilityTimer(s), [])
  }

  /** `attach()`: on the first attach of a live store, registers the platform listeners and queues a recompute. */
  function Attach(s: StoreState): (r: StoreState)
    ensures s.attached || s.destroyed ==> r == s
    ensures !s.attached && !s.destroyed ==>
              r == s.(attached := true, scheduler := Scheduler.ScheduleFrame(s.scheduler, RecomputeJob))
  {
    if s.attached || s.destroyed then s
    else s.(attached := true, scheduler := Scheduler.ScheduleFrame(s.scheduler, RecomputeJob))
  }

  /** `detach()`: unregisters the platform listeners if registered. */
  function Detach(s: StoreState): (r: StoreState)
    ensures !r.attached
    ensures r == s.(attached := false)
  {
    if !s.attached then s else s.(attached := false)
  }

  /** `subscribe(l)`: unless destroyed, adds `l`, attaches on the first listener, and queues `l`'s first call. */
  function Subscribe(s: StoreState, l: ListenerId): (r: StoreState)
    ensures s.destroyed ==> r == s
    ensures !s.destroyed ==>
              && (forall x :: x in r.listeners <==> x in s.listeners || x == l)
              && (s.attached || |s.listeners| == 0 ==> r.attached)
              && r.snapshot == s.snapshot && r.timers == s.timers && !r.destroyed
    ensures !s.destroyed ==> r.listeners == AddListener(s.listeners, l) && r.scheduler.frameQueued
    ensures !s.destroyed && s.attached && !s.scheduler.frameQueued ==>
              r.scheduler == Scheduler.ScheduleFrame(s.scheduler, NotifyJob(l))
    ensures !s.destroyed && !s.attached && |s.listeners| == 0 ==>
              r.scheduler == Scheduler.ScheduleFrame(s.scheduler, RecomputeJob)
    ensures !s.destroyed ==> r == s.(listeners := r.listeners, attached := r.attached, scheduler := r.scheduler)
  {
    if s.destroyed then s
    else
      var s1 := s.(listeners := AddListener(s.listeners, l));
      var s2 := if |s1.listeners| == 1 then Attach(s1) else s1;
      s2.(scheduler := Scheduler.ScheduleFrame(s2.scheduler, NotifyJob(l)))
  }

  /** The unsubscribe function `subscribe` returns: removes `l`, and detaches once no listener is left. */
  function Unsubscribe(s: StoreState, l: ListenerId): (r: StoreState)
    ensures forall x :: x in r.listeners <==> x in s.listeners && x != l
    ensures |r.listeners| == 0 ==> !r.attached
    ensures r.snapshot == s.snapshot && r.scheduler == s.scheduler && r.destroyed == s.destroyed
    ensures r.listeners == RemoveListener(s.listeners, l)
    ensures |r.listeners| > 0 ==> r.attached == s.attached
    ensures r == s.(listeners := r.listeners, attached := r.attached)
  {
    var s1 := s.(listeners := RemoveListener(s.listeners, l));
    if |s1.listeners| == 0 then Detach(s1) else s1
  }

  /** `destroy()`: the first call detaches, cancels scheduled work and the timer, and drops every listener. */
  function Destroy(s: StoreState): (r: StoreState)
    ensures s.destroyed ==> r == s
    ensures r.destroyed
    ensures !s.destroyed ==>
              && !r.attached && r.listeners == [] && r.stableTimer.None?
              && r.timers == s.timers - OptionSet(s.stableTimer)
              && r.scheduler == Scheduler.CancelAll(s.scheduler)
              && r.snapshot == s.snapshot
    ensures !s.destroyed ==>
              r.config == s.config && r.lastChangeAt == s.lastChangeAt && r.nextTimerId == s.nextTimerId
  {
    if s.destroyed then s
    else
      var s1 := Detach(s.(destroyed := true));
      s1.(scheduler := Scheduler.CancelAll(s1.scheduler),
          timers := s1.timers - OptionSet(s1.stableTimer),
          stableTimer := None,
          listeners := [])
  }

  /** A platform event (resize, scroll, orientation change, page show): a recompute is requested while attached. */
  function ViewportEvent(s: StoreState): (r: StoreState)
    ensures !s.attached ==> r == s
    ensures s.attached ==> r == s.(scheduler := Scheduler.ScheduleFrame(s.scheduler, RecomputeJob))
  {
    if s.attached then s.(scheduler := Scheduler.ScheduleFrame(s.scheduler, RecomputeJob)) else s
  }

  /** Runs one scheduled callback. */
  function RunJob(s: StoreState, job: Job, env: Env): (o: Outcome)
    ensures job.NotifyJob? ==>
              o.state == s &&
              o.notified == (if !s.destroyed && job.listener in s.listeners then [job.listener] else [])
  {
    match job
    case RecomputeJob => Recompute(s, env)
    case NotifyJob(l) => Outcome(s, if !s.destroyed && l in s.listeners then [l] else [])
    case StartTimerJob => Outcome(StartTimer(s, env.now), [])
  }

  /** One call into the store or one delivery by the host. */
  datatype Event =
    | SubscribeCall(listener: ListenerId)
    | UnsubscribeCall(listener: ListenerId)
    | DestroyCall
    | PlatformEvent
    | MicrotaskRuns
    | FrameFires(frameId: nat, env: Env)
    | IdleFires(idleId: nat, env: Env)
    | TimerFires(timerId: nat, env: Env)

  /** The effect of one event on a full store. */
  function Step(s: StoreState, e: Event): Outcome {
    match e
    case SubscribeCall(l) => Outcome(Subscribe(s, l), [])
    case UnsubscribeCall(l) => Outcome(Unsubscribe(s, l), [])
    case DestroyCall => Outcome(Destroy(s), [])
    case PlatformEvent => Outcome(ViewportEvent(s), [])
    case MicrotaskRuns => Outcome(s.(scheduler := Scheduler.RunMicrotask(s.scheduler)), [])
    case FrameFires(id, env) =>
      var fired := Scheduler.FireFrame(s.scheduler, id);
      var s1 := s.(scheduler := fired.state);
      if fired.callback.None? then Outcome(s1, []) else RunJob(s1, fired.callback.value, env)
    case IdleFires(id, env) =>
      var fired := Scheduler.FireIdle(s.scheduler, id);
      var s1 := s.(scheduler := fired.state);
      if fired.callback.None? then Outcome(s1, []) else RunJob(s1, fired.callback.value, env)
    case TimerFires(id, env) => TimerCallback(s, id, env.now)
  }

  /** The effect of one event on any store: a degraded store ignores everything. */
  function StepStore(store: Store, e: Event): (r: (Store, seq<ListenerId>))
    ensures store.OffHost? ==> r == (OffHost, [])
    ensures store.OnHost? ==> r == (OnHost(Step(store.state, e).state), Step(store.state, e).notified)
  {
    match store
    case OffHost => (OffHost, [])
    case OnHost(s) => var o := Step(s, e); (OnHost(o.state), o.notified)
  }

  /**
   * The host's guarantees for an event: its clock never runs behind the last recorded change,
   * and a timer never fires before it is due.
   */
  predicate Admissible(s: StoreState, e: Event) {
    match e
    case FrameFires(_, env) => env.now >= s.lastChangeAt
    case IdleFires(_, env) => env.now >= s.lastChangeAt
    case TimerFires(id, env) => env.now >= s.lastChangeAt && (id in s.timers ==> env.now >= s.timers[id])
    case _ => true
  }

  /** The listener collection and the attachment state agree. */
  ghost predicate ListenersOk(s: StoreState) {
    && Distinct(s.listeners)
    && (s.attached <==> !s.destroyed && |s.listeners| > 0)
    && (s.destroyed ==> s.listeners == [] && s.stableTimer.None? && s.timers == map[])
  }

  /** The scheduler keeps its own invariant; nothing is cancelled before destroy; only the timer starter waits on the idle queue. */
  ghost predicate SchedulerOk(s: StoreState) {
    var sch := s.scheduler;
    && Scheduler.Inv(sch)
    && (!s.destroyed ==> forall i :: 0 <= i < |sch.host.microtasks| ==> sch.host.microtasks[i].generation == sch.generation)
    && (s.destroyed ==> !sch.frameQueued && !sch.idleQueued)
    && (forall id :: id in sch.host.idles ==> sch.host.idles[id] == StartTimerJob)
    && (forall id :: id in sch.host.frames ==> !sch.host.frames[id].StartTimerJob?)
    && (forall i :: 0 <= i < |sch.host.microtasks| ==> !sch.host.microtasks[i].fn.StartTimerJob?)
  }

  /** At most the referenced timer is pending, and it is not due before the quiet period after the last change has passed. */
  ghost predicate TimersOk(s: StoreState) {
    && s.timers.Keys <= OptionSet(s.stableTimer)
    && (s.scheduler.idleQueued ==> s.timers == map[])
    && (forall id :: id in s.timers ==> id < s.nextTimerId)
    && (forall id :: id in s.timers ==> s.timers[id] >= s.lastChangeAt + s.config.stableDelayMs)
  }

  /** The snapshot is well formed, and an unstable snapshot is the one recorded as the last change. */
  ghost predicate SnapshotOk(s: StoreState) {
    && WellFormed(s.snapshot, s.config)
    && (!s.snapshot.isStable ==> s.lastChangeAt == s.snapshot.ts)
  }

  /** A live unstable store always has its stability check on the way: the idle callback or the timer. */
  ghost predicate CheckPending(s: StoreState) {
    !s.destroyed && !s.snapshot.isStable ==> s.scheduler.idleQueued || s.timers != map[]
  }

  ghost predicate Inv(s: StoreState) {
    ListenersOk(s) && SchedulerOk(s) && TimersOk(s) && SnapshotOk(s) && CheckPending(s)
  }

  lemma SubscribePreservesInv(s: StoreState, l: ListenerId)
    requires Inv(s)
    ensures Inv(Subscribe(s, l))
  {
    if !s.destroyed {
      var s1 := s.(listeners := AddListener(s.listeners, l));
      var s2 := if |s1.listeners| == 1 then Attach(s1) else s1;
      if |s1.listeners| == 1 && !s1.attached {
        Scheduler.ScheduleFramePreservesInv(s1.scheduler, RecomputeJob);
      }
      Scheduler.ScheduleFramePreservesInv(s2.scheduler, NotifyJob(l));
    }
  }

  lemma UnsubscribePreservesInv(s: StoreState, l: ListenerId)
    requires Inv(s)
    ensures Inv(Unsubscribe(s, l))
  {
  }

  lemma DestroyPreservesInv(s: StoreState)
    requires Inv(s)
    ensures Inv(Destroy(s))
  {
    if !s.destroyed {
      Scheduler.CancelAllPreservesInv(s.scheduler);
    }
  }

  lemma ViewportEventPreservesInv(s: StoreState)
    requires Inv(s)
    ensures Inv(ViewportEvent(s))
  {
    if s.attached {
      Scheduler.ScheduleFramePreservesInv(s.scheduler, RecomputeJob);
    }
  }

  lemma MicrotaskPreservesInv(s: StoreState)
    requires Inv(s)
    ensures Inv(s.(scheduler := Scheduler.RunMicrotask(s.scheduler)))
  {
    Scheduler.RunMicrotaskPreservesInv(s.scheduler);
  }

  /** `Inv` without `CheckPending`, for the moment between the host firing a callback and the callback running. */
  ghost predicate InvButPending(s: StoreState) {
    ListenersOk(s) && SchedulerOk(s) && TimersOk(s) && SnapshotOk(s)
  }

  lemma RecomputePreservesInv(s: StoreState, env: Env)
    requires InvButPending(s) && env.now >= s.lastChangeAt
    ensures !s.destroyed ==> Inv(Recompute(s, env).state)
    ensures s.destroyed ==> Recompute(s, env).state == s
  {
    if !s.destroyed {
      var next := ComputeSnapshot(env.host, s.config, env.now).(isStable := false);
      if !SameSnapshot(s.snapshot, next) {
        assert WellFormed(next, s.config);
        ArmStabilityTimerRestoresInv(s.(snapshot := next, lastChangeAt := next.ts));
      } else {
        ArmStabilityTimerRestoresInv(s);
      }
    }
  }

  /** Re-arming makes a live store whose timers are at most the referenced one satisfy the whole invariant. */
  lemma ArmStabilityTimerRestoresInv(s: StoreState)
    requires !s.destroyed && ListenersOk(s) && SchedulerOk(s) && SnapshotOk(s)
    requires s.timers.Keys <= OptionSet(s.stableTimer)
    ensures Inv(ArmStabilityTimer(s))
  {
    Scheduler.ScheduleIdlePreservesInv(s.scheduler, StartTimerJob);
    assert ArmStabilityTimer(s).timers == map[];
  }

  lemma RunJobPreservesInv(s: StoreState, job: Job, env: Env)
    requires InvButPending(s) && env.now >= s.lastChangeAt
    requires job == StartTimerJob ==> s.timers == map[] && !s.scheduler.idleQueued
    requires job != StartTimerJob ==> CheckPending(s)
    ensures Inv(RunJob(s, job, env).state)
  {
    match job {
      case RecomputeJob =>
        RecomputePreservesInv(s, env);
      case NotifyJob(l) =>
      case StartTimerJob =>
        if !s.destroyed {
          var r := StartTimer(s, env.now);
          assert r.timers.Keys == s.timers.Keys + {s.nextTimerId};
          assert r.timers.Keys <= OptionSet(r.stableTimer);
        }
    }
  }

  lemma FrameFiresPreservesInv(s: StoreState, id: nat, env: Env)
    requires Inv(s) && env.now >= s.lastChangeAt
    ensures Inv(Step(s, FrameFires(id, env)).state)
  {
    var fired := Scheduler.FireFrame(s.scheduler, id);
    var s1 := s.(scheduler := fired.state);
    FiredFrameKeepsInv(s, id);
    if fired.callback.Some? {
      var job := fired.callback.value;
      FiredFrameJob(s, id);
      RunJobPreservesInv(s1, job, env);
    }
  }

  /** A fired frame hands back a recompute or a per-listener call, and a live unstable store still has its check pending. */
  lemma FiredFrameJob(s: StoreState, id: nat)
    requires Inv(s)
    ensures var fired := Scheduler.FireFrame(s.scheduler, id);
            && (fired.callback.Some? ==> !fired.callback.value.StartTimerJob?)
            && CheckPending(s.(scheduler := fired.state))
  {
  }

  /** Firing a frame request, before its callback runs, keeps the store invariant. */
  lemma FiredFrameKeepsInv(s: StoreState, id: nat)
    requires Inv(s)
    ensures Inv(s.(scheduler := Scheduler.FireFrame(s.scheduler, id).state))
  {
    Scheduler.FireFramePreservesInv(s.scheduler, id);
  }

  lemma IdleFiresPreservesInv(s: StoreState, id: nat, env: Env)
    requires Inv(s) && env.now >= s.lastChangeAt
    ensures Inv(Step(s, IdleFires(id, env)).state)
  {
    var fired := Scheduler.FireIdle(s.scheduler, id);
    var s1 := s.(scheduler := fired.state);
    FiredIdleKeepsInvButPending(s, id);
    if fired.callback.Some? {
      RunJobPreservesInv(s1, StartTimerJob, env);
    }
  }

  /** Firing an idle request hands back the timer starter, with no timer pending and the idle queue empty. */
  lemma FiredIdleKeepsInvButPending(s: StoreState, id: nat)
    requires Inv(s)
    ensures var fired := Scheduler.FireIdle(s.scheduler, id);
            && InvButPending(s.(scheduler := fired.state))
            && (fired.callback.Some? ==>
                  fired.callback.value == StartTimerJob && s.timers == map[] && !fired.state.idleQueued)
  {
    Scheduler.FireIdlePreservesInv(s.scheduler, id);
  }

  lemma TimerFiresPreservesInv(s: StoreState, id: nat, env: Env)
    requires Inv(s) && Admissible(s, TimerFires(id, env))
    ensures Inv(Step(s, TimerFires(id, env)).state)
  {
    if id in s.timers {
      var s1 := s.(timers := s.timers - {id});
      assert s1.timers == map[];
    }
  }

  /** Every admissible event keeps the store invariant. */
  lemma StepPreservesInv(s: StoreState, e: Event)
    requires Inv(s) && Admissible(s, e)
    ensures Inv(Step(s, e).state)
  {
    match e {
      case SubscribeCall(l) => SubscribePreservesInv(s, l);
      case UnsubscribeCall(l) => UnsubscribePreservesInv(s, l);
      case DestroyCall => DestroyPreservesInv(s);
      case PlatformEvent => ViewportEventPreservesInv(s);
      case MicrotaskRuns => MicrotaskPreservesInv(s);
      case FrameFires(id, env) => FrameFiresPreservesInv(s, id, env);
      case IdleFires(id, env) => IdleFiresPreservesInv(s, id, env);
      case TimerFires(id, env) => TimerFiresPreservesInv(s, id, env);
    }
  }
}

=== FILE: store_properties.dfy ===
/**
 * Properties of the store of src/core/engine.ts over single events and over whole
 * event sequences: what a recompute does to the snapshot and to the listeners, when a
 * snapshot becomes stable, what a destroyed store still does, and how the scheduler
 * coalesces the work a subscription queues.
 */
module StoreProperties {
  import opened Wrappers
  import opened JsNumber
  import opened Config
  import opened Geometry
  import Scheduler
  import opened ViewportStore

  /** The state after `es` and every listener call made on the way, in order. */
  function Run(s: StoreState, es: seq<Event>): Outcome
    decreases |es|
  {
    if |es| == 0 then Outcome(s, [])
    else
      var first := Step(s, es[0]);
      var rest := Run(first.state, es[1..]);
      Outcome(rest.state, first.notified + rest.notified)
  }

  /** Every event of `es` is admissible in the state it is delivered in. */
  ghost predicate AdmissibleRun(s: StoreState, es: seq<Event>)
    decreases |es|
  {
    |es| == 0 || (Admissible(s, es[0]) && AdmissibleRun(Step(s, es[0]).state, es[1..]))
  }

  /** The store invariant holds after any admissible sequence of events. */
  lemma {:induction false} RunPreservesInv(s: StoreState, es: seq<Event>)
    requires Inv(s) && AdmissibleRun(s, es)
    ensures Inv(Run(s, es).state)
    decreases |es|
  {
    if |es| > 0 {
      StepPreservesInv(s, es[0]);
      RunPreservesInv(Step(s, es[0]).state, es[1..]);
    }
  }

  /** Off-host the store is degraded: `getSnapshot` fails, `getServerSnapshot` is `null`, and every call does nothing. */
  lemma OffHostStoreIsInert(options: Option<Options>, env: Env, e: Event)
    ensures Create(options, false, env) == OffHost
    ensures GetSnapshot(Create(options, false, env)) == Err(CalledOffHost)
    ensures GetServerSnapshot(Create(options, false, env)).None?
    ensures StepStore(Create(options, false, env), e) == (OffHost, [])
  {
  }

  /** A new store on a host reads back the snapshot measured at creation, and `getServerSnapshot` is still `null`. */
  lemma CreatedSnapshotReadsBack(options: Option<Options>, env: Env)
    ensures GetSnapshot(Create(options, true, env)) == Ok(ComputeSnapshot(env.host, WithDefaults(options), env.now))
    ensures GetServerSnapshot(Create(options, true, env)).None?
  {
  }

  /**
   * Only current subscribers are called, only while live, and an event calls either every
   * listener in subscription order or a single one.
   */
  lemma NotifiedAreSubscribers(s: StoreState, e: Event)
    ensures forall l :: l in Step(s, e).notified ==> l in s.listeners
    ensures Step(s, e).notified != [] ==> !s.destroyed
    ensures var n := Step(s, e).notified;
            n == [] || n == s.listeners || (|n| == 1 && n[0] in s.listeners)
  {
  }

  /** A listener that is not subscribed, and is not subscribed by the event, stays unsubscribed and is not called. */
  lemma StepKeepsOutsiderOut(s: StoreState, e: Event, l: ListenerId)
    requires l !in s.listeners && e != SubscribeCall(l)
    ensures l !in Step(s, e).state.listeners
    ensures l !in Step(s, e).notified
  {
    NotifiedAreSubscribers(s, e);
  }

  /** A listener is never called unless some event subscribes it. */
  lemma {:induction false} OnlySubscribersAreNotified(s: StoreState, es: seq<Event>, l: ListenerId)
    requires l !in s.listeners
    requires forall i :: 0 <= i < |es| ==> es[i] != SubscribeCall(l)
    ensures l !in Run(s, es).notified
    decreases |es|
  {
    if |es| > 0 {
      StepKeepsOutsiderOut(s, es[0], l);
      OnlySubscribersAreNotified(Step(s, es[0]).state, es[1..], l);
    }
  }

  /** A snapshot becomes stable only when a due timer fires at least `stableDelayMs` after the last change. */
  lemma StableOnlyAfterQuietPeriod(s: StoreState, e: Event)
    requires !s.snapshot.isStable && Step(s, e).state.snapshot.isStable
    ensures e.TimerFires? && e.timerId in s.timers && !s.destroyed
    ensures e.env.now - s.lastChangeAt >= s.config.stableDelayMs
    ensures Step(s, e).notified == s.listeners
  {
  }

  /** A stable snapshot becomes unstable only through a recompute run by a frame callback. */
  lemma UnstableOnlyThroughRecompute(s: StoreState, e: Event)
    requires Inv(s) && s.snapshot.isStable && !Step(s, e).state.snapshot.isStable
    ensures e.FrameFires? && e.frameId in s.scheduler.host.frames
    ensures s.scheduler.host.frames[e.frameId] == RecomputeJob
    ensures Step(s, e).notified == s.listeners
  {
  }

  /** Once its timer is due, an unstable live store becomes stable and calls every listener. */
  lemma DueTimerStabilizes(s: StoreState, id: nat, env: Env)
    requires Inv(s) && !s.destroyed && !s.snapshot.isStable
    requires id in s.timers && env.now >= s.timers[id]
    ensures Step(s, TimerFires(id, env)).state.snapshot.isStable
    ensures Step(s, TimerFires(id, env)).state.snapshot.ts == env.now
    ensures Step(s, TimerFires(id, env)).notified == s.listeners
  {
  }

  /**
   * An unstable live store whose idle callback is pending becomes stable once the idle callback
   * runs and the timer it starts fires `stableDelayMs` later, with no other event in between.
   */
  lemma {:induction false} StabilizesAfterIdleAndTimer(s: StoreState, env1: Env, env2: Env)
    requires Inv(s) && !s.destroyed && !s.snapshot.isStable && s.scheduler.idleQueued
    requires env1.now >= s.lastChangeAt && env2.now >= env1.now + s.config.stableDelayMs
    ensures var o := Run(s, [IdleFires(s.scheduler.idleId.value, env1), TimerFires(s.nextTimerId, env2)]);
            o.state.snapshot.isStable && o.notified == s.listeners
  {
    var id := s.scheduler.idleId.value;
    var es := [IdleFires(id, env1), TimerFires(s.nextTimerId, env2)];
    assert id in s.scheduler.host.idles;
    var o1 := Step(s, es[0]);
    assert o1.notified == [];
    assert o1.state.timers == map[s.nextTimerId := env1.now + s.config.stableDelayMs];
    assert o1.state.lastChangeAt == s.lastChangeAt && o1.state.snapshot == s.snapshot;
    var o2 := Step(o1.state, es[1]);
    assert o2.state.snapshot.isStable && o2.notified == s.listeners;
    assert es[1..][1..] == [];
    assert Run(o1.state, es[1..]) == Outcome(o2.state, o2.notified + []);
  }

  /** The measured snapshot depends on the clock only through its timestamp. */
  lemma SnapshotClockOnlyInTs(host: HostReadings, c: Config, t1: real, t2: real)
    ensures ComputeSnapshot(host, c, t1).(ts := t2) == ComputeSnapshot(host, c, t2)
  {
  }

  /**
   * With the geometry unchanged and no NaN offset, a second recompute settles: it keeps the
   * snapshot the first one left and calls nobody, whatever the clock says.
   */
  lemma {:induction false} RecomputeSettles(s: StoreState, env: Env, t: real)
    requires !s.destroyed
    requires !ComputeSnapshot(env.host, s.config, env.now).offsetLeft.NaN?
    requires !ComputeSnapshot(env.host, s.config, env.now).offsetTop.NaN?
    ensures var o1 := Recompute(s, env);
            var o2 := Recompute(o1.state, Env(env.host, t));
            o2.notified == [] && o2.state.snapshot == o1.state.snapshot
  {
    var next1 := ComputeSnapshot(env.host, s.config, env.now).(isStable := false);
    var next2 := ComputeSnapshot(env.host, s.config, t).(isStable := false);
    SnapshotClockOnlyInTs(env.host, s.config, env.now, t);
    assert next1.(ts := t) == next2;
    var o1 := Recompute(s, env);
    SameSnapshotIsEqualityUpToTs(s.snapshot, next1);
    SameSnapshotIsEqualityUpToTs(o1.state.snapshot, next2);
    if SameSnapshot(s.snapshot, next1) {
      assert o1.state.snapshot == s.snapshot;
      assert s.snapshot.(ts := next1.ts) == next1;
    } else {
      assert o1.state.snapshot == next1;
    }
    assert SameSnapshot(o1.state.snapshot, next2);
  }

  /** A NaN offset never compares equal, so every recompute replaces the snapshot and calls every listener. */
  lemma NaNOffsetNeverSettles(s: StoreState, env: Env)
    requires !s.destroyed
    requires env.host.visualViewport.Some? && env.host.visualViewport.value.offsetTop == Number(NaN)
    ensures Recompute(s, env).notified == s.listeners
    ensures Recompute(s, env).state.snapshot == ComputeSnapshot(env.host, s.config, env.now).(isStable := false)
    ensures Recompute(s, env).state.lastChangeAt == env.now
  {
    NonFiniteOffsetPassesThrough(env.host, s.config, env.now);
  }

  /**
   * A stable snapshot whose geometry has not changed still counts as changed on the next
   * recompute, because the candidate is marked unstable: the store becomes unstable and
   * calls every listener.
   */
  lemma UnchangedGeometryUnsettlesStable(s: StoreState, env: Env)
    requires !s.destroyed && s.snapshot.isStable
    requires s.snapshot == ComputeSnapshot(env.host, s.config, s.snapshot.ts)
    ensures !Recompute(s, env).state.snapshot.isStable
    ensures Recompute(s, env).notified == s.listeners
    ensures Recompute(s, env).state.lastChangeAt == env.now
  {
  }

  /**
   * The first subscriber of a new store: its own first call is coalesced away because the
   * recompute queued by attaching already holds the frame, and that recompute calls it
   * instead, exactly once, with an unstable snapshot.
   */
  lemma {:induction false} FirstSubscriberReachedThroughRecompute(options: Option<Options>, env0: Env, l: ListenerId, env1: Env)
    ensures var s1 := Subscribe(Create(options, true, env0).state, l);
            && s1.attached && s1.listeners == [l]
            && s1.scheduler.host.microtasks == [Scheduler.Microtask(RecomputeJob, 0)]
    ensures var s1 := Subscribe(Create(options, true, env0).state, l);
            var o := Run(s1, [MicrotaskRuns, FrameFires(0, env1)]);
            o.notified == [l] && !o.state.snapshot.isStable
  {
    FreshStoreFirstSubscriber(Create(options, true, env0).state, l, env1);
  }

  /** `FirstSubscriberReachedThroughRecompute` for any live, detached store with a stable snapshot and an idle scheduler. */
  lemma {:induction false} FreshStoreFirstSubscriber(s0: StoreState, l: ListenerId, env1: Env)
    requires !s0.destroyed && !s0.attached && s0.listeners == [] && s0.snapshot.isStable
    requires s0.scheduler == Scheduler.Init()
    ensures var s1 := Subscribe(s0, l);
            && s1.attached && s1.listeners == [l]
            && s1.scheduler.host.microtasks == [Scheduler.Microtask(RecomputeJob, 0)]
    ensures var o := Run(Subscribe(s0, l), [MicrotaskRuns, FrameFires(0, env1)]);
            o.notified == [l] && !o.state.snapshot.isStable
  {
    var s1 := Subscribe(s0, l);
    assert s1.listeners == [l];
    assert s1.scheduler == Scheduler.ScheduleFrame(s0.scheduler, RecomputeJob);
    var es := [MicrotaskRuns, FrameFires(0, env1)];
    var o1 := Step(s1, es[0]);
    assert o1.state.scheduler.host.frames == map[0 := RecomputeJob];
    var fired := Scheduler.FireFrame(o1.state.scheduler, 0);
    assert fired.callback == Some(RecomputeJob);
    var s2 := o1.state.(scheduler := fired.state);
    assert s2.snapshot.isStable && !s2.destroyed && s2.listeners == [l];
    assert !SameSnapshot(s2.snapshot, ComputeSnapshot(env1.host, s2.config, env1.now).(isStable := false));
    var o2 := Step(o1.state, es[1]);
    assert o2 == Recompute(s2, env1);
    assert o2.notified == [l];
    assert es[1..][1..] == [];
    assert Run(o1.state, es[1..]) == Outcome(o2.state, o2.notified + []);
  }

  /**
   * A store whose last listener left while its snapshot was still unstable, geometry unchanged
   * since: a new subscriber's own call is coalesced away behind the attach recompute, and that
   * recompute finds the same snapshot and calls nobody. The subscriber is first called when the
   * store settles (or the geometry changes).
   */
  lemma {:induction false} ResubscribeToUnsettledStoreCallsNobody(s: StoreState, b: ListenerId, env: Env)
    requires !s.destroyed && !s.attached && s.listeners == [] && !s.snapshot.isStable
    requires !s.scheduler.frameQueued && s.scheduler.host.microtasks == []
    requires s.snapshot == ComputeSnapshot(env.host, s.config, s.snapshot.ts).(isStable := false)
    requires !s.snapshot.offsetLeft.NaN? && !s.snapshot.offsetTop.NaN?
    ensures var s1 := Step(Step(s, SubscribeCall(b)).state, MicrotaskRuns).state;
            var o := Step(s1, FrameFires(s.scheduler.host.nextId, env));
            && b in s1.listeners
            && o.notified == [] && o.state.snapshot == s.snapshot
  {
    var s0 := Subscribe(s, b);
    assert s0.scheduler == Scheduler.ScheduleFrame(s.scheduler, RecomputeJob);
    var s1 := s0.(scheduler := Scheduler.RunMicrotask(s0.scheduler));
    assert s1.scheduler.host.frames[s.scheduler.host.nextId] == RecomputeJob;
    var fired := Scheduler.FireFrame(s1.scheduler, s.scheduler.host.nextId);
    var s2 := s1.(scheduler := fired.state);
    assert s2.snapshot == s.snapshot && !s2.destroyed;
    var next := ComputeSnapshot(env.host, s.config, env.now).(isStable := false);
    SnapshotClockOnlyInTs(env.host, s.config, s.snapshot.ts, env.now);
    SameSnapshotIsEqualityUpToTs(s.snapshot, next);
    assert SameSnapshot(s2.snapshot, next);
    assert Step(s1, FrameFires(s.scheduler.host.nextId, env)) == Recompute(s2, env);
  }

  /** A subscription while a frame callback is pending queues nothing: its first call is dropped. */
  lemma SubscribeWhileFramePendingQueuesNothing(s: StoreState, l: ListenerId)
    requires !s.destroyed && s.scheduler.frameQueued
    ensures Subscribe(s, l).scheduler == s.scheduler
    ensures l in Subscribe(s, l).listeners
  {
  }

  /**
   * Two subscriptions in one tick on an attached store with no frame pending queue only the
   * first one's call: the second subscriber joins, but nothing is queued for it.
   */
  lemma SameTickSecondSubscriberQueuesNothing(s: StoreState, b: ListenerId, c: ListenerId)
    requires !s.destroyed && s.attached && !s.scheduler.frameQueued
    ensures var r := Subscribe(Subscribe(s, b), c);
            && r.scheduler == Scheduler.ScheduleFrame(s.scheduler, NotifyJob(b))
            && b in r.listeners && c in r.listeners
  {
  }

  /** Unsubscribing twice is the same as unsubscribing once. */
  lemma UnsubscribeIdempotent(s: StoreState, l: ListenerId)
    ensures Unsubscribe(Unsubscribe(s, l), l) == Unsubscribe(s, l)
  {
  }

  /** Resubscribing after the last listener left attaches again and queues a fresh recompute. */
  lemma ResubscribeReattaches(s: StoreState, l: ListenerId, m: ListenerId)
    requires Inv(s) && !s.destroyed && s.listeners == [l] && !s.scheduler.frameQueued
    ensures var u := Unsubscribe(s, l);
            && !u.attached
            && Subscribe(u, m).attached
            && Subscribe(u, m).scheduler == Scheduler.ScheduleFrame(s.scheduler, RecomputeJob)
  {
  }

  /**
   * After any admissible event the platform listeners are registered exactly while the
   * store is live and has a subscriber: attach on the first listener, detach on the last.
   */
  lemma AttachedExactlyWhileSubscribed(s: StoreState, e: Event)
    requires Inv(s) && Admissible(s, e)
    ensures var r := Step(s, e).state;
            r.attached <==> !r.destroyed && |r.listeners| > 0
  {
    StepPreservesInv(s, e);
  }

  /** Once the last listener has left, platform events queue nothing, so the snapshot stops following the viewport. */
  lemma DetachedIgnoresPlatformEvents(s: StoreState, l: ListenerId)
    requires Inv(s) && s.listeners == [l]
    ensures Step(Unsubscribe(s, l), PlatformEvent).state == Unsubscribe(s, l)
    ensures Unsubscribe(s, l).snapshot == s.snapshot
  {
  }

  /** Destroying twice is the same as destroying once. */
  lemma DestroyIdempotent(s: StoreState)
    ensures Destroy(Destroy(s)) == Destroy(s)
  {
  }

  /** One event on a destroyed store calls nobody and changes neither the snapshot nor the listeners. */
  lemma DestroyedStepIsInert(s: StoreState, e: Event)
    requires s.destroyed && s.listeners == []
    ensures Step(s, e).notified == []
    ensures Step(s, e).state.destroyed && Step(s, e).state.listeners == []
    ensures Step(s, e).state.snapshot == s.snapshot
  {
  }

  /** After `destroy`, no sequence of events calls a listener or changes the snapshot. */
  lemma {:induction false} NothingAfterDestroy(s: StoreState, es: seq<Event>)
    requires Inv(s)
    ensures Run(Destroy(s), es).notified == []
    ensures Run(Destroy(s), es).state.snapshot == s.snapshot
  {
    DestroyedStaysInert(Destroy(s), es);
  }

  lemma {:induction false} DestroyedStaysInert(s: StoreState, es: seq<Event>)
    requires s.destroyed && s.listeners == []
    ensures Run(s, es).notified == []
    ensures Run(s, es).state.destroyed && Run(s, es).state.listeners == []
    ensures Run(s, es).state.snapshot == s.snapshot
    decreases |es|
  {
    if |es| > 0 {
      DestroyedStepIsInert(s, es[0]);
      DestroyedStaysInert(Step(s, es[0]).state, es[1..]);
    }
  }

  /**
   * In every state the store can reach, the microtask as written and the generation-checked
   * one do the same thing: the store calls `cancelAll` only from `destroy`, after which it
   * never schedules again.
   */
  lemma StoreMicrotaskAgreesAsWritten(s: StoreState)
    requires Inv(s)
    ensures Scheduler.RunMicrotaskAsWritten(s.scheduler) == Scheduler.RunMicrotask(s.scheduler)
  {
    Scheduler.RunMicrotaskAgreesWhenCurrent(s.scheduler);
  }
}

=== FILE: wrappers.dfy ===
/** Failure-compatible wrappers shared by the other modules. */
module Wrappers {

  /** An optional value: the model's `undefined`/`null` for optional options and host objects. */
  datatype Option<+T> = None | Some(value: T) {

    /** The wrapped value, or `default` when absent (JavaScript's `x ?? default`). */
    function GetOr(default: T): (r: T)
      ensures Some? ==> r == value
      ensures None? ==> r == default
    {
      match this
      case Some(v) => v
      case None => default
    }
  }

  /** A value or the error the code as written would throw. */
  datatype Result<+T, +E> = Ok(value: T) | Err(error: E)

  /** The set holding the wrapped value, if any. */
  function OptionSet<T>(o: Option<T>): (r: set<T>)
    ensures o.None? <==> r == {}
    ensures o.Some? ==> r == {o.value}
  {
    match o
    case None => {}
    case Some(v) => {v}
  }
}
